=== FILE: README.md ===
# Dynamic Ansible inventory — a Dafny model

This project models the inventory-building logic of
`ansible/inventory/dynamic_inventory.py`. That logic turns Terraform outputs,
or EC2 instance records, into an Ansible dynamic-inventory document. The
document is a `_meta.hostvars` table plus named groups, and each group holds a
`hosts` list.

Two builders are modelled:

- **`TerraformInventory`** (module `TerraformInventory`). For each scanned
  environment (`dev`, `staging`, `prod`, or the one given), it extracts a host
  record from the Terraform outputs and stores it under `<env>-web-server`.
  That host is listed in the `web_servers` and `<env>` groups, and the `all`
  group is created with fixed vars. If Terraform contributes no host at all,
  the builder falls back to EC2 instance records, filtered by the given
  environment.
- **`EC2Inventory`** (module `Ec2Inventory`). For each EC2 instance it reads
  the tag dictionary. It names the host `<Environment>-<Name>` and lists it, at
  most once per group, in `all`, `web_servers`, `<Environment>` and
  `type_<InstanceType>`.

Modules:

- `Wrappers`: `Option` and `Result`.
- `InventoryData`: the inventory document (`Inventory`, `Group`, `Value`), the
  names shared by both builders, and `get_host_vars`.
- `CloudRecords`: Terraform outputs, EC2 instances and tags. It also holds the
  two ways the source reads tags:
  - `FirstTagValue`: the first tag with a given key;
  - `TagMap`: a dictionary in which the last tag with a key wins.
- `TerraformInventory` and `Ec2Inventory`: the two builders.

The document is `Inventory(hostvars, groups)`. The Python dictionary it stands
for is `{'_meta': {'hostvars': hostvars}}` plus one entry per group. For this
reason `_meta` is never a group key (`Valid`). A group's `hosts` or `vars` is
`None` when its JSON object has no such key. The Terraform `all` group has no
`hosts` list, and groups built from EC2 tags have no `vars`.

Python's `KeyError`s are kept.

- In the Terraform builder, `AddHost` fails in two cases, and the failure
  escapes `generate_inventory`, so `GenerateInventory` returns a `Result`:
  - the environment is `_meta`, which has no `hosts` list;
  - the environment's group already exists without a `hosts` list. This is an
    environment named `all` after the `all` group was created.
- In the EC2 builder, `_process_instance` swallows the same error. The groups
  already joined stay joined, so `AddToGroups` stops at the first failure and
  keeps the earlier additions.

External inputs become parameters:

- Terraform, per environment: a `TerraformEnv` carrying the result of
  `terraform show -json` as a "state exists" flag and the result of
  `terraform output -json` as an `Option<Outputs>`. An environment missing from
  the map has no Terraform directory.
- The EC2 `describe_instances` call: a `seq<Instance>`. When the call raises,
  that sequence is empty.

An environment yields no Terraform host, without any error, when its state is
missing, its outputs are missing or empty, or its outputs lack a non-empty
`public_ip.value`. No other output is required.

## Model

| member | source | states |
|---|---|---|
| `CloudRecords.FirstTagValue` | ansible/inventory/dynamic_inventory.py:165-168 | the scan yields nothing exactly when no tag has the key; otherwise the value of a tag with that key, with no earlier tag carrying it |
| `CloudRecords.TagMapKeys` | ansible/inventory/dynamic_inventory.py:323 | a key is in the tag dictionary exactly when some tag carries it |
| `CloudRecords.TagMapLastWins` | ansible/inventory/dynamic_inventory.py:323 | the dictionary holds the value of the last tag with a given key |
| `CloudRecords.ReplaceDots` | ansible/inventory/dynamic_inventory.py:359 | replacing dots keeps the length and turns exactly the dots into underscores |
| `CloudRecords.FirstTagVersusTagMap` | ansible/inventory/dynamic_inventory.py:165-168 | for every tag list and key: the scan yields the value of the first tag carrying the key, the dictionary the value of the last, and the two agree exactly when those two values are equal |
| `CloudRecords.TagMap` | ansible/inventory/dynamic_inventory.py:323 | no contract of its own; `TagMapKeys` and `TagMapLastWins` state its key set and its last-write-wins values |
| `TerraformInventory.ExtractFromTerraform` | ansible/inventory/dynamic_inventory.py:128-156 | no record exactly when `public_ip.value` is absent or empty; otherwise `ansible_host` is the IP, user `ubuntu`, key file `~/.ssh/<key_name>.pem`, `environment` the scanned env, and the record has exactly the eight keys |
| `TerraformInventory.MissingKeyNameRendersNone` | ansible/inventory/dynamic_inventory.py:135-148 | for every outputs map with a non-empty `public_ip` and no `key_name` output, whatever else it holds, the key file is `~/.ssh/None.pem` and `key_name` is null |
| `TerraformInventory.ExtractFromEc2` | ansible/inventory/dynamic_inventory.py:158-196 | no record exactly when the first `Environment` tag or the public IP is absent or empty; otherwise the environment of that first tag, key name defaulting to `iac-demo-key`, `source = aws-api` |
| `TerraformInventory.ExtractorsAgree` | ansible/inventory/dynamic_inventory.py:180-190 | given a key name, the EC2 record is the Terraform record of the same addresses plus `source = aws-api` |
| `TerraformInventory.HostnameInjective` | ansible/inventory/dynamic_inventory.py:200 | distinct environments get distinct `<env>-web-server` hostnames |
| `TerraformInventory.JoinGroup` | ansible/inventory/dynamic_inventory.py:206-211 | a group is created as given when absent and the host appended to its `hosts`; fails exactly when an existing group has no `hosts` list; other groups are untouched |
| `TerraformInventory.AddHostGroups` | ansible/inventory/dynamic_inventory.py:205-231 | fails exactly for `_meta` or when `web_servers` or the environment group exists without `hosts`; otherwise appends the hostname to both (twice to `web_servers` for env `web_servers`), sets vars only on groups it creates, creates `all` with its fixed vars, and leaves other groups alone |
| `TerraformInventory.AddHost` | ansible/inventory/dynamic_inventory.py:198-231 | fails exactly on `_meta` or a group without `hosts`; otherwise the hostvars entry is replaced, the hostname is appended to `web_servers` and `<env>`, and new groups get their initial vars. Existing vars are untouched, `all` is created once, and every other group is unchanged |
| `TerraformInventory.AddHostListsAgain` | ansible/inventory/dynamic_inventory.py:205-211 | every addition appends the hostname to `web_servers` again, with no duplicate check |
| `TerraformInventory.AddHostTwiceDuplicates` | ansible/inventory/dynamic_inventory.py:200-221 | adding one environment twice keeps the second record and lists its hostname at least twice |
| `TerraformInventory.AddHostKeepsHostsHaveVars` | ansible/inventory/dynamic_inventory.py:202-221 | every listed host keeps a `_meta.hostvars` entry |
| `TerraformInventory.AddHostKeepsListed` | ansible/inventory/dynamic_inventory.py:202-211 | every host with a record stays listed in `web_servers`: the record and the `web_servers` append come together |
| `TerraformInventory.AddHostKeepsHostsPresent` | ansible/inventory/dynamic_inventory.py:206-221 | for environments other than `_meta` and `all`, the addition cannot fail when every group but `all` has `hosts` |
| `TerraformInventory.AddHostKeepsAllGroupFixed` | ansible/inventory/dynamic_inventory.py:223-231 | for environments other than `all`, an addition creates the `all` group with its fixed vars when absent and otherwise leaves it untouched |
| `TerraformInventory.AddHostSucceeds` | ansible/inventory/dynamic_inventory.py:206-231 | the two invariants above hold together and the addition succeeds |
| `TerraformInventory.TerraformHost` | ansible/inventory/dynamic_inventory.py:243-247 | no contract of its own; `TerraformHostRecord` states when it yields and what the record holds |
| `TerraformInventory.TerraformHostRecord` | ansible/inventory/dynamic_inventory.py:243-247 | Terraform yields a host exactly when the state exists, the outputs are present and non-empty and `public_ip.value` is non-empty; the record has the eight Terraform keys and names the environment |
| `TerraformInventory.TerraformPass` | ansible/inventory/dynamic_inventory.py:239-253 | `hosts_found` never exceeds the number of scanned environments and is zero exactly when no scanned environment yields a host; `TerraformPassKeys`, `TerraformPassRecords`, `TerraformPassKeepsOthers`, `TerraformPassWellFormed` and `TerraformPassSucceeds` state the inventory it builds |
| `TerraformInventory.TerraformPassNoHost` | ansible/inventory/dynamic_inventory.py:239-253 | with no yielding environment the Terraform loop adds nothing, counts zero and cannot fail |
| `TerraformInventory.TerraformPassFound` | ansible/inventory/dynamic_inventory.py:243-251 | a yielding scanned environment makes `hosts_found` positive |
| `TerraformInventory.TerraformPassKeys` | ansible/inventory/dynamic_inventory.py:239-251 | the loop adds exactly the `<env>-web-server` names of environments with state, non-empty outputs and a public IP |
| `TerraformInventory.TerraformPassKeepsOthers` | ansible/inventory/dynamic_inventory.py:239-251 | records under other names are left alone |
| `TerraformInventory.TerraformPassRecords` | ansible/inventory/dynamic_inventory.py:243-249 | each yielding environment's Terraform record ends up under its hostname |
| `TerraformInventory.TerraformPassWellFormed` | ansible/inventory/dynamic_inventory.py:239-251 | the loop keeps `_meta` out of the groups, every listed host backed by a record, and every host with a record listed in `web_servers` |
| `TerraformInventory.TerraformPassSucceeds` | ansible/inventory/dynamic_inventory.py:239-251 | with no scanned environment named `_meta` or `all` the loop cannot fail and keeps `all` fixed |
| `TerraformInventory.TerraformPassHasNoSource` | ansible/inventory/dynamic_inventory.py:243-249 | Terraform-loop records never carry `source` |
| `TerraformInventory.AwsPass` | ansible/inventory/dynamic_inventory.py:255-267 | no contract of its own; `AwsPassKeys`, `AwsPassSelects`, `AwsPassWellFormed` and `AwsPassSucceeds` state the fallback loop |
| `TerraformInventory.AwsPassKeys` | ansible/inventory/dynamic_inventory.py:260-267 | the fallback adds exactly the hostnames of instances that extract and pass the environment filter |
| `TerraformInventory.AwsPassSelects` | ansible/inventory/dynamic_inventory.py:263-265 | with a given environment, every host the fallback adds is that environment's, with a record naming it |
| `TerraformInventory.AwsPassWellFormed` | ansible/inventory/dynamic_inventory.py:260-267 | the fallback keeps `_meta` out of the groups, every listed host backed by a record, and every host with a record listed in `web_servers` |
| `TerraformInventory.AwsPassSucceeds` | ansible/inventory/dynamic_inventory.py:260-267 | with no instance tagged `_meta` or `all` the fallback cannot fail |
| `TerraformInventory.GenerateInventory` | ansible/inventory/dynamic_inventory.py:233-270 | no contract of its own; `GenerateIsTerraformPass`, `GeneratePrefersTerraform`, `GenerateFallsBack`, `GenerateRestrictsEnvironment`, `GenerateWellFormed`, `GenerateSucceeds` and `GenerateFailsForMetaEnvironment` state `generate_inventory` |
| `TerraformInventory.GenerateIsTerraformPass` | ansible/inventory/dynamic_inventory.py:243-256 | once Terraform yields a host, generation returns the Terraform loop's result |
| `TerraformInventory.GeneratePrefersTerraform` | ansible/inventory/dynamic_inventory.py:233-270 | once Terraform yields a host, the AWS instances do not affect the result, whose hosts are exactly the yielding environments' and carry no `source` |
| `TerraformInventory.GenerateFallsBack` | ansible/inventory/dynamic_inventory.py:255-267 | when Terraform yields nothing, the result is the AWS fallback over an empty inventory, whose hosts are exactly the selected instances' |
| `TerraformInventory.GenerateRestrictsEnvironment` | ansible/inventory/dynamic_inventory.py:235-267 | with a given environment, the only possible host is its `<env>-web-server`, whose record names it, and `get_host_vars` of any other name is `{}` |
| `TerraformInventory.GenerateWellFormed` | ansible/inventory/dynamic_inventory.py:233-270 | the result never has a `_meta` group; every host listed in a group has a record, and every host with a record is listed in `web_servers` |
| `TerraformInventory.GenerateSucceeds` | ansible/inventory/dynamic_inventory.py:233-270 | generation fails only through an environment named `_meta` or `all`; otherwise `all` holds exactly its fixed vars once any host exists |
| `TerraformInventory.GenerateFailsForMetaEnvironment` | ansible/inventory/dynamic_inventory.py:213-221 | asking for environment `_meta` with a Terraform host raises the `hosts` KeyError |
| `TerraformInventory.GetHostVarsOfTerraformHost` | ansible/inventory/dynamic_inventory.py:272-274 | `get_host_vars` returns the Terraform record of every yielding scanned environment |
| `InventoryData.GetHostVars` | ansible/inventory/dynamic_inventory.py:272-274 | an unknown hostname gives `{}`, a known one its record |
| `Ec2Inventory.AddToGroup` | ansible/inventory/dynamic_inventory.py:364-370 | fails exactly for `_meta` or a group without `hosts`. Otherwise it creates `{hosts: []}` when missing and appends the host only if absent, preserving order. Hostvars and every other group are unchanged |
| `Ec2Inventory.AddToGroupIdempotent` | ansible/inventory/dynamic_inventory.py:364-370 | adding the same host to the same group twice equals adding it once |
| `Ec2Inventory.AddToGroupKeepsWellFormed` | ansible/inventory/dynamic_inventory.py:364-370 | group lists stay duplicate-free and name only hosts with records |
| `Ec2Inventory.AddToGroupsIdempotent` | ansible/inventory/dynamic_inventory.py:352-359 | repeating the sequence of group additions, including one cut short by a KeyError, changes nothing |
| `Ec2Inventory.AddToGroups` | ansible/inventory/dynamic_inventory.py:352-359 | no contract of its own; `AddToGroupsIdempotent`, `AddToGroupsKeepsMember`, `AddToGroupsKeepsHosts`, `AddToGroupsKeepsWellFormed`, `AddToGroupsJoinsAll`, `AddToGroupsJoinsFirstTwo`, `AddToGroupsKeepsHostvars` and `AddToGroupsStopsAtMeta` state it |
| `Ec2Inventory.AddToGroupsKeepsMember` | ansible/inventory/dynamic_inventory.py:364-370 | the host being added, once listed in a group, stays listed there, and that group keeps its `hosts` list; `AddToGroupsKeepsHosts` states the same for every other host |
| `Ec2Inventory.AddToGroupsKeepsHosts` | ansible/inventory/dynamic_inventory.py:364-370 | additions never drop any host from any group |
| `Ec2Inventory.AddToGroupsKeepsWellFormed` | ansible/inventory/dynamic_inventory.py:352-359 | additions keep the inventory well formed and touch only the named groups |
| `Ec2Inventory.AddToGroupsJoinsAll` | ansible/inventory/dynamic_inventory.py:352-359 | in a well-formed inventory, when no named group is `_meta`, the host ends up in every named group |
| `Ec2Inventory.AddToGroupsKeepsHostvars` | ansible/inventory/dynamic_inventory.py:364-370 | group additions never change `_meta.hostvars` |
| `Ec2Inventory.Ec2Hostname` | ansible/inventory/dynamic_inventory.py:329 | no contract of its own; `ProcessInstance` and `ProcessAllKeys` state where it is stored, and `EnvironmentTagReadings` evaluates it on a concrete instance |
| `Ec2Inventory.Ec2HostVars` | ansible/inventory/dynamic_inventory.py:336-347 | no contract of its own; `Ec2HostVarsRecord` states its content |
| `Ec2Inventory.Ec2HostVarsRecord` | ansible/inventory/dynamic_inventory.py:336-347 | the record has exactly the ten keys of this builder, no `source` marker, the public IP as `ansible_host`, the environment, and the whole tag dictionary |
| `Ec2Inventory.InstanceTypeGroup` | ansible/inventory/dynamic_inventory.py:358-359 | the name is `type_` followed by the instance type (or `unknown`) with every dot replaced by an underscore; so it has no dots and is none of `_meta`, `all`, `web_servers` |
| `Ec2Inventory.ProcessInstance` | ansible/inventory/dynamic_inventory.py:319-350 | an instance without a non-empty `Environment` tag (last one wins) or public IP leaves the inventory unchanged. Otherwise its record is stored under `<env>-<Name or unknown>` |
| `Ec2Inventory.ProcessInstanceJoinsGroups` | ansible/inventory/dynamic_inventory.py:349-359 | an accepted instance with an environment other than `_meta` joins `all`, `web_servers`, `<env>` and `type_<type>`; no other group changes |
| `Ec2Inventory.ProcessInstanceMetaEnvironment` | ansible/inventory/dynamic_inventory.py:353-362 | an instance tagged `Environment=_meta` joins `all` and `web_servers`, then the swallowed KeyError leaves it out of the remaining groups |
| `Ec2Inventory.AddToGroupsStopsAtMeta` | ansible/inventory/dynamic_inventory.py:353-362 | additions to `all`, `web_servers`, `_meta` perform the first two and stop |
| `Ec2Inventory.AddToGroupsJoinsFirstTwo` | ansible/inventory/dynamic_inventory.py:353-354 | additions that start with `all` and `web_servers` list the host in both, whatever fails later |
| `Ec2Inventory.ProcessInstanceIdempotent` | ansible/inventory/dynamic_inventory.py:319-370 | processing the same instance twice equals processing it once |
| `Ec2Inventory.ProcessInstanceKeepsWellFormed` | ansible/inventory/dynamic_inventory.py:349-359 | one instance keeps every group duplicate-free and backed by records |
| `Ec2Inventory.ProcessInstanceKeepsListed` | ansible/inventory/dynamic_inventory.py:349-354 | one instance keeps every host with a record listed in `all` and `web_servers`, because both additions precede the one that can fail |
| `Ec2Inventory.ProcessAll` | ansible/inventory/dynamic_inventory.py:309-311 | no contract of its own; `ProcessAllKeys`, `ProcessAllKeepsWellFormed`, `ProcessAllKeepsListed` and `RejectedInstancesIgnored` state the loop |
| `Ec2Inventory.ProcessAllKeys` | ansible/inventory/dynamic_inventory.py:309-311 | processing adds records for exactly the `<Environment>-<Name>` hostnames of the instances it does not skip |
| `Ec2Inventory.ProcessAllKeepsWellFormed` | ansible/inventory/dynamic_inventory.py:309-311 | processing a sequence of instances keeps every group duplicate-free |
| `Ec2Inventory.ProcessAllKeepsListed` | ansible/inventory/dynamic_inventory.py:309-311 | processing keeps every host with a record listed in `all` and `web_servers` |
| `Ec2Inventory.GenerateInventory` | ansible/inventory/dynamic_inventory.py:290-317 | the result holds a record for exactly the hostnames of the instances that are not skipped |
| `Ec2Inventory.GenerateWellFormed` | ansible/inventory/dynamic_inventory.py:290-317 | the generated inventory has no `_meta` group, lists each host at most once per group and only hosts with records, and lists every host with a record in `all` and `web_servers` |
| `Ec2Inventory.Accepted` | ansible/inventory/dynamic_inventory.py:325-333 | keeps exactly the instances with a non-empty `Environment` tag and public IP: every kept instance is accepted and from the input, and every accepted input instance is kept |
| `Ec2Inventory.AcceptedAppend` | ansible/inventory/dynamic_inventory.py:309-311 | the filter keeps input order: filtering a concatenation is filtering each part and concatenating the results |
| `Ec2Inventory.RejectedInstancesIgnored` | ansible/inventory/dynamic_inventory.py:325-333 | dropping rejected instances leaves the generated inventory unchanged |
| `Ec2Inventory.EnvironmentTagReadings` | ansible/inventory/dynamic_inventory.py:323-325 | for tags `Environment=dev, Environment=prod`, the fallback extractor says `dev` while this builder registers `prod-unknown` |

## Left out

- `_run_terraform_command`, `_get_terraform_outputs`, `_check_terraform_state`: they run subprocesses, change directory and decode JSON. Their results are the `TerraformEnv` inputs.
- `_get_ec2_instances_from_aws` and the `describe_instances` call in `EC2Inventory.generate_inventory`: these are network calls. The AWS-side filters (`Project` tag, instance state), the region and the flattening of reservations are not modelled. Their result is the instance sequence given, which is empty when the call raises.
- `_find_project_root`: a filesystem walk.
- `main`: argument parsing, JSON printing, logging and exit codes. The EC2 `--host` path reads `_meta.hostvars` directly, which is what `GetHostVars` does.
- Logging is left out. Of `hosts_found`, only the Terraform loop's count is modelled, because only its zero test affects the result; the fallback's increments are only logged.
- The `try/except` blocks that catch malformed input are not modelled. Inputs are well-typed records, and every output value and tag is a string. Python truthiness of non-string JSON values is therefore not modelled.
- Key order of the JSON dictionaries is not modelled, because the model uses maps.

=== FILE: cloud_records.dfy ===
/**
 * The inputs the inventory builders read: the `terraform output -json`
 * mapping of one environment, and EC2 instance descriptions with their tags.
 */
module CloudRecords {
  import opened Wrappers

  /** One entry of `terraform output -json`; only its `value` is read. */
  datatype OutputEntry = OutputEntry(value: Option<string>)

  /** Terraform outputs keyed by output name. */
  type Outputs = map<string, OutputEntry>

  /** The `value` of output `name`; None when the output or its value is missing. */
  function OutputValue(outputs: Outputs, name: string): Option<string> {
    if name in outputs then outputs[name].value else None
  }

  datatype Tag = Tag(key: string, value: string)

  /**
   * The fields of an EC2 `describe_instances` record the builders read.
   * A None field is a key missing from the record; a missing `Tags` list
   * is the empty sequence.
   */
  datatype Instance = Instance(
    tags: seq<Tag>,
    keyName: Option<string>,
    publicIp: Option<string>,
    privateIp: Option<string>,
    instanceId: Option<string>,
    instanceType: Option<string>,
    availabilityZone: Option<string>)

  /** The value of the first tag whose key is `key` (a scan that stops at the first match). */
  function FirstTagValue(tags: seq<Tag>, key: string): (r: Option<string>)
    ensures r.None? <==> forall i :: 0 <= i < |tags| ==> tags[i].key != key
    ensures r.Some? ==> exists i :: 0 <= i < |tags| && tags[i] == Tag(key, r.value)
                                    && forall j :: 0 <= j < i ==> tags[j].key != key
  {
    if |tags| == 0 then None
    else if tags[0].key == key then Some(tags[0].value)
    else
      var r := FirstTagValue(tags[1..], key);
      if r.Some? then
        var i :| 0 <= i < |tags| - 1 && tags[1..][i] == Tag(key, r.value)
                 && forall j :: 0 <= j < i ==> tags[1..][j].key != key;
        assert tags[i + 1] == Tag(key, r.value);
        assert forall j :: 0 <= j < i + 1 ==> tags[j].key != key by {
          forall j | 0 <= j < i + 1 ensures tags[j].key != key {
            if j > 0 { assert tags[j] == tags[1..][j - 1]; }
          }
        }
        r
      else
        assert forall j :: 0 < j < |tags| ==> tags[j] == tags[1..][j - 1];
        r
  }

  /**
   * The tag dictionary built from `tags` in order: a later tag with the
   * same key replaces an earlier one.
   */
  function TagMap(tags: seq<Tag>): map<string, string> {
    if |tags| == 0 then map[]
    else TagMap(tags[..|tags| - 1])[tags[|tags| - 1].key := tags[|tags| - 1].value]
  }

  /** A key is in the tag dictionary exactly when some tag carries it. */
  lemma {:induction false} TagMapKeys(tags: seq<Tag>, k: string)
    ensures k in TagMap(tags) <==> exists i :: 0 <= i < |tags| && tags[i].key == k
    decreases |tags|
  {
    if |tags| > 0 {
      var init := tags[..|tags| - 1];
      TagMapKeys(init, k);
      if k in TagMap(init) {
        var i :| 0 <= i < |init| && init[i].key == k;
        assert tags[i].key == k;
      }
      if exists i :: 0 <= i < |tags| && tags[i].key == k {
        var i :| 0 <= i < |tags| && tags[i].key == k;
        if i < |init| { assert init[i].key == k; }
      }
    }
  }

  /** The dictionary keeps the value of the LAST tag with a given key. */
  lemma {:induction false} TagMapLastWins(tags: seq<Tag>, i: int)
    requires 0 <= i < |tags|
    requires forall j :: i < j < |tags| ==> tags[j].key != tags[i].key
    ensures tags[i].key in TagMap(tags) && TagMap(tags)[tags[i].key] == tags[i].value
    decreases |tags|
  {
    if i < |tags| - 1 {
      var init := tags[..|tags| - 1];
      assert init[i] == tags[i];
      forall j | i < j < |init| ensures init[j].key != init[i].key {
        assert init[j] == tags[j];
      }
      TagMapLastWins(init, i);
    }
  }

  /** Every dot of `s` replaced by an underscore. */
  function ReplaceDots(s: string): (r: string)
    ensures |r| == |s|
    ensures forall i :: 0 <= i < |s| ==> r[i] == (if s[i] == '.' then '_' else s[i])
  {
    if |s| == 0 then ""
    else [if s[0] == '.' then '_' else s[0]] + ReplaceDots(s[1..])
  }

  /**
   * The two tag readings of a key: the first-match scan yields the first
   * tag carrying it, the dictionary the last, so they agree exactly when
   * those two tags carry the same value.
   */
  lemma {:induction false} FirstTagVersusTagMap(tags: seq<Tag>, k: string, first: int, last: int)
    requires 0 <= first <= last < |tags| && tags[first].key == k && tags[last].key == k
    requires forall j :: 0 <= j < first ==> tags[j].key != k
    requires forall j :: last < j < |tags| ==> tags[j].key != k
    ensures FirstTagValue(tags, k) == Some(tags[first].value)
    ensures k in TagMap(tags) && TagMap(tags)[k] == tags[last].value
    ensures FirstTagValue(tags, k).value == TagMap(tags)[k] <==> tags[first].value == tags[last].value
  {
    var i :| 0 <= i < |tags| && tags[i] == Tag(k, FirstTagValue(tags, k).value)
             && forall j :: 0 <= j < i ==> tags[j].key != k;
    assert i == first;
    TagMapLastWins(tags, last);
  }
}

=== FILE: ec2_inventory.dfy ===
/**
 * The tag-driven EC2 inventory builder: every tagged instance with a public
 * IP becomes a host named `<Environment>-<Name>` in the `all`,
 * `web_servers`, `<Environment>` and `type_<InstanceType>` groups, each
 * group listing a host at most once.
 */
module Ec2Inventory {
  import opened Wrappers
  import opened InventoryData
  import opened CloudRecords
  import TerraformInventory

  const SshArgs := "-o StrictHostKeyChecking=no"
  const NameTag := "Name"
  const Unknown := "unknown"

  /**
   * Adds `host` to `group` unless it is already listed, creating the group
   * as `{hosts: []}` when absent. None models the KeyError raised when the
   * group has no `hosts` list, which is always the case for `_meta`.
   */
  function AddToGroup(inv: Inventory, group: string, host: string): (r: Option<Inventory>)
    ensures r.None? <==> group == MetaKey || (group in inv.groups && inv.groups[group].hosts.None?)
    ensures r.Some? ==> r.value.hostvars == inv.hostvars
    ensures r.Some? ==> r.value.groups.Keys == inv.groups.Keys + {group}
    ensures r.Some? ==> forall g :: g in inv.groups && g != group ==> r.value.groups[g] == inv.groups[g]
    ensures r.Some? ==> r.value.groups[group].hosts.Some?
    ensures r.Some? && group in inv.groups ==> r.value.groups[group].vars == inv.groups[group].vars
    ensures r.Some? && group !in inv.groups ==> r.value.groups[group].vars.None?
    ensures r.Some? && host in HostsOf(inv, group) ==> HostsOf(r.value, group) == HostsOf(inv, group)
    ensures r.Some? && host !in HostsOf(inv, group) ==> HostsOf(r.value, group) == HostsOf(inv, group) + [host]
  {
    if group == MetaKey then None
    else
      var existing := if group in inv.groups then inv.groups[group] else Group(Some([]), None);
      if existing.hosts.None? then None
      else if host in existing.hosts.value then Some(inv.(groups := inv.groups[group := existing]))
      else Some(inv.(groups := inv.groups[group := existing.(hosts := Some(existing.hosts.value + [host]))]))
  }

  /** Adding a host a second time changes nothing. */
  lemma AddToGroupIdempotent(inv: Inventory, group: string, host: string)
    requires AddToGroup(inv, group, host).Some?
    ensures AddToGroup(AddToGroup(inv, group, host).value, group, host) == AddToGroup(inv, group, host)
  {
    var r := AddToGroup(inv, group, host).value;
    assert host in HostsOf(r, group);
    assert r.groups[group := r.groups[group]] == r.groups;
  }

  /** Every group has a duplicate-free `hosts` list naming only hosts with records, and `_meta` is no group. */
  predicate Ec2WellFormed(inv: Inventory) {
    && Valid(inv)
    && HostsHaveVars(inv)
    && forall g :: g in inv.groups ==> inv.groups[g].hosts.Some? && NoDuplicates(inv.groups[g].hosts.value)
  }

  /** Adding a host that has a record keeps the inventory well formed. */
  lemma AddToGroupKeepsWellFormed(inv: Inventory, group: string, host: string)
    requires Ec2WellFormed(inv)
    requires host in inv.hostvars
    requires AddToGroup(inv, group, host).Some?
    ensures Ec2WellFormed(AddToGroup(inv, group, host).value)
  {
    var r := AddToGroup(inv, group, host).value;
    forall g | g in r.groups ensures r.groups[g].hosts.Some? && NoDuplicates(r.groups[g].hosts.value) {
      if g == group {
        assert r.groups[g].hosts.value == HostsOf(r, g);
      } else {
        assert r.groups[g] == inv.groups[g];
      }
    }
    forall g, h | g in r.groups && h in HostsOf(r, g) ensures h in r.hostvars {
      if g != group {
        assert HostsOf(r, g) == HostsOf(inv, g);
      }
    }
  }

  /** `_add_to_group` for each of `groups` in turn; an exception ends the sequence, keeping earlier additions. */
  function AddToGroups(inv: Inventory, groups: seq<string>, host: string): Inventory
    decreases |groups|
  {
    if |groups| == 0 then inv
    else match AddToGroup(inv, groups[0], host)
      case None => inv
      case Some(next) => AddToGroups(next, groups[1..], host)
  }

  /** Running the same additions twice is the same as running them once. */
  lemma {:induction false} AddToGroupsIdempotent(inv: Inventory, groups: seq<string>, host: string)
    ensures AddToGroups(AddToGroups(inv, groups, host), groups, host) == AddToGroups(inv, groups, host)
    decreases |groups|
  {
    if |groups| > 0 {
      match AddToGroup(inv, groups[0], host)
      case None =>
      case Some(next) =>
        var r := AddToGroups(next, groups[1..], host);
        AddToGroupsKeepsMember(next, groups[1..], host, groups[0]);
        assert r.groups[groups[0] := r.groups[groups[0]]] == r.groups;
        assert AddToGroup(r, groups[0], host) == Some(r);
        AddToGroupsIdempotent(next, groups[1..], host);
    }
  }

  /** Additions never remove the host being added from a group, nor a group's `hosts` list. */
  lemma {:induction false} AddToGroupsKeepsMember(inv: Inventory, groups: seq<string>, host: string, group: string)
    requires group in inv.groups && inv.groups[group].hosts.Some? && host in HostsOf(inv, group)
    ensures var r := AddToGroups(inv, groups, host);
            group in r.groups && r.groups[group].hosts.Some? && host in HostsOf(r, group)
    decreases |groups|
  {
    if |groups| > 0 {
      match AddToGroup(inv, groups[0], host)
      case None =>
      case Some(next) =>
        AddToGroupsKeepsMember(next, groups[1..], host, group);
    }
  }

  /** Additions of a host that has a record keep the inventory well formed, and touch nothing but the named groups. */
  lemma {:induction false} AddToGroupsKeepsWellFormed(inv: Inventory, groups: seq<string>, host: string)
    requires Ec2WellFormed(inv)
    requires host in inv.hostvars
    ensures var r := AddToGroups(inv, groups, host);
            && Ec2WellFormed(r)
            && r.hostvars == inv.hostvars
            && (forall g :: g in r.groups ==> g in inv.groups || g in groups)
            && (forall g :: g in inv.groups && g !in groups ==> g in r.groups && r.groups[g] == inv.groups[g])
    decreases |groups|
  {
    if |groups| > 0 {
      match AddToGroup(inv, groups[0], host)
      case None =>
      case Some(next) =>
        AddToGroupKeepsWellFormed(inv, groups[0], host);
        AddToGroupsKeepsWellFormed(next, groups[1..], host);
        assert forall g :: g in groups[1..] ==> g in groups;
    }
  }

  /** In a well-formed inventory, additions to groups other than `_meta` all succeed: the host ends up in each. */
  lemma {:induction false} AddToGroupsJoinsAll(inv: Inventory, groups: seq<string>, host: string)
    requires Ec2WellFormed(inv)
    requires host in inv.hostvars
    requires forall g :: g in groups ==> g != MetaKey
    ensures forall g :: g in groups ==> g in AddToGroups(inv, groups, host).groups
                                        && host in HostsOf(AddToGroups(inv, groups, host), g)
    decreases |groups|
  {
    if |groups| > 0 {
      assert groups[0] in groups;
      var next := AddToGroup(inv, groups[0], host).value;
      AddToGroupKeepsWellFormed(inv, groups[0], host);
      assert forall g :: g in groups[1..] ==> g in groups;
      AddToGroupsJoinsAll(next, groups[1..], host);
      AddToGroupsKeepsMember(next, groups[1..], host, groups[0]);
    }
  }

  /** The `Environment` value of the instance's tag dictionary (the last such tag). */
  function TagEnvironment(instance: Instance): Option<string> {
    var tags := TagMap(instance.tags);
    if EnvironmentTag in tags then Some(tags[EnvironmentTag]) else None
  }

  /** An instance is skipped without a non-empty `Environment` tag or public IP. */
  predicate Rejected(instance: Instance) {
    !Truthy(TagEnvironment(instance)) || !Truthy(instance.publicIp)
  }

  /** `<Environment>-<Name>`, with `unknown` for a missing `Name` tag. */
  function Ec2Hostname(instance: Instance): string
    requires TagEnvironment(instance).Some?
  {
    var tags := TagMap(instance.tags);
    TagEnvironment(instance).value + "-" + (if NameTag in tags then tags[NameTag] else Unknown)
  }

  /** `type_<InstanceType>` with dots replaced by underscores, `type_unknown` without a type. */
  function InstanceTypeGroup(instance: Instance): (r: string)
    ensures var t := if instance.instanceType.Some? then instance.instanceType.value else Unknown;
            && |r| == 5 + |t| && r[..5] == "type_"
            && forall i :: 0 <= i < |t| ==> r[5 + i] == (if t[i] == '.' then '_' else t[i])
    ensures forall i :: 0 <= i < |r| ==> r[i] != '.'
    ensures r != MetaKey && r != AllGroup && r != WebServers
  {
    var r := "type_" + ReplaceDots(if instance.instanceType.Some? then instance.instanceType.value else Unknown);
    assert r[0] == 't' && MetaKey[0] == '_' && AllGroup[0] == 'a' && WebServers[0] == 'w';
    r
  }

  /** The groups an accepted instance joins, in the order it joins them. */
  function GroupsFor(instance: Instance): seq<string>
    requires TagEnvironment(instance).Some?
  {
    [AllGroup, WebServers, TagEnvironment(instance).value, InstanceTypeGroup(instance)]
  }

  /** The keys of a host record this builder stores. */
  const Ec2VarKeys: set<string> := {
    "ansible_host", "ansible_user", "ansible_ssh_private_key_file", "private_ip", "instance_id",
    "instance_type", "availability_zone", "environment", "tags", "ansible_ssh_common_args"}

  /** The host variables `_process_instance` stores for an accepted instance. */
  function Ec2HostVars(instance: Instance, env: string): HostVars
    requires instance.publicIp.Some?
  {
    map[
      "ansible_host" := Str(instance.publicIp.value),
      "ansible_user" := Str(DefaultUser),
      "ansible_ssh_private_key_file" := Str(KeyFile(if instance.keyName.Some? then instance.keyName.value else DefaultKeyName)),
      "private_ip" := OptionalValue(instance.privateIp),
      "instance_id" := OptionalValue(instance.instanceId),
      "instance_type" := OptionalValue(instance.instanceType),
      "availability_zone" := OptionalValue(instance.availabilityZone),
      "environment" := Str(env),
      "tags" := Obj(TagMap(instance.tags)),
      "ansible_ssh_common_args" := Str(SshArgs)]
  }

  /**
   * The stored record has exactly the ten keys of this builder, carries no
   * `source` marker, and holds the public IP, environment and tag dictionary.
   */
  lemma Ec2HostVarsRecord(instance: Instance, env: string)
    requires instance.publicIp.Some?
    ensures var r := Ec2HostVars(instance, env);
            && r.Keys == Ec2VarKeys && "source" !in r
            && r["ansible_host"] == Str(instance.publicIp.value) && r["environment"] == Str(env)
            && r["tags"] == Obj(TagMap(instance.tags))
  {
    assert |"source"| == 6;
  }

  /**
   * `_process_instance`: a rejected instance leaves the inventory as it
   * was; otherwise the host record is stored and the host joins its groups.
   */
  function ProcessInstance(inv: Inventory, instance: Instance): (r: Inventory)
    ensures Rejected(instance) ==> r == inv
    ensures !Rejected(instance) ==>
              r.hostvars == inv.hostvars[Ec2Hostname(instance) := Ec2HostVars(instance, TagEnvironment(instance).value)]
  {
    if Rejected(instance) then inv
    else
      var host := Ec2Hostname(instance);
      var stored := inv.(hostvars := inv.hostvars[host := Ec2HostVars(instance, TagEnvironment(instance).value)]);
      AddToGroupsKeepsHostvars(stored, GroupsFor(instance), host);
      AddToGroups(stored, GroupsFor(instance), host)
  }

  lemma {:induction false} AddToGroupsKeepsHostvars(inv: Inventory, groups: seq<string>, host: string)
    ensures AddToGroups(inv, groups, host).hostvars == inv.hostvars
    decreases |groups|
  {
    if |groups| > 0 {
      match AddToGroup(inv, groups[0], host)
      case None =>
      case Some(next) =>
        AddToGroupsKeepsHostvars(next, groups[1..], host);
    }
  }

  /**
   * An accepted instance whose environment is not `_meta` is listed in
   * `all`, `web_servers`, its environment group and its type group; no
   * other group changes, and the inventory stays well formed.
   */
  lemma ProcessInstanceJoinsGroups(inv: Inventory, instance: Instance)
    requires Ec2WellFormed(inv)
    requires !Rejected(instance) && TagEnvironment(instance).value != MetaKey
    ensures var r := ProcessInstance(inv, instance);
            && Ec2WellFormed(r)
            && (forall g :: g in GroupsFor(instance) ==> g in r.groups && Ec2Hostname(instance) in HostsOf(r, g))
            && (forall g :: g in r.groups ==> g in inv.groups || g in GroupsFor(instance))
            && (forall g :: g in inv.groups && g !in GroupsFor(instance) ==> g in r.groups && r.groups[g] == inv.groups[g])
  {
    var host := Ec2Hostname(instance);
    var stored := inv.(hostvars := inv.hostvars[host := Ec2HostVars(instance, TagEnvironment(instance).value)]);
    assert Ec2WellFormed(stored) by {
      assert forall g :: g in stored.groups ==> HostsOf(stored, g) == HostsOf(inv, g);
    }
    assert forall g :: g in GroupsFor(instance) ==> g != MetaKey;
    AddToGroupsJoinsAll(stored, GroupsFor(instance), host);
    AddToGroupsKeepsWellFormed(stored, GroupsFor(instance), host);
  }

  /**
   * An instance tagged `Environment=_meta` is stored and listed in `all`
   * and `web_servers`, then the KeyError on `_meta` ends processing: it
   * joins neither an environment nor a type group.
   */
  lemma ProcessInstanceMetaEnvironment(inv: Inventory, instance: Instance)
    requires Ec2WellFormed(inv)
    requires !Rejected(instance) && TagEnvironment(instance).value == MetaKey
    ensures var r := ProcessInstance(inv, instance);
            && r.groups.Keys == inv.groups.Keys + {AllGroup, WebServers}
            && Ec2Hostname(instance) in HostsOf(r, AllGroup)
            && Ec2Hostname(instance) in HostsOf(r, WebServers)
            && forall g :: g in inv.groups && g != AllGroup && g != WebServers ==> r.groups[g] == inv.groups[g]
  {
    var host := Ec2Hostname(instance);
    var stored := inv.(hostvars := inv.hostvars[host := Ec2HostVars(instance, TagEnvironment(instance).value)]);
    assert HostsPresentIn(stored, AllGroup) && HostsPresentIn(stored, WebServers);
    AddToGroupsStopsAtMeta(stored, GroupsFor(instance), host);
  }

  /** Additions to `all`, `web_servers`, then `_meta`: the first two happen, the KeyError ends the rest. */
  lemma AddToGroupsStopsAtMeta(inv: Inventory, groups: seq<string>, host: string)
    requires |groups| >= 3 && groups[0] == AllGroup && groups[1] == WebServers && groups[2] == MetaKey
    requires HostsPresentIn(inv, AllGroup) && HostsPresentIn(inv, WebServers)
    ensures var r := AddToGroups(inv, groups, host);
            && r.groups.Keys == inv.groups.Keys + {AllGroup, WebServers}
            && host in HostsOf(r, AllGroup)
            && host in HostsOf(r, WebServers)
            && forall g :: g in inv.groups && g != AllGroup && g != WebServers ==> r.groups[g] == inv.groups[g]
  {
    var s1 := AddToGroup(inv, AllGroup, host).value;
    assert host in HostsOf(s1, AllGroup);
    var s2 := AddToGroup(s1, WebServers, host).value;
    assert host in HostsOf(s2, AllGroup) by {
      assert s2.groups[AllGroup] == s1.groups[AllGroup];
    }
    assert AddToGroups(s2, groups[2..], host) == s2;
    assert AddToGroups(s1, groups[1..], host) == AddToGroups(s2, groups[1..][1..], host);
    assert groups[1..][1..] == groups[2..];
  }

  /** `group`, when present, has a `hosts` list. */
  predicate HostsPresentIn(inv: Inventory, group: string) {
    group in inv.groups ==> inv.groups[group].hosts.Some?
  }

  /** Processing the same instance twice is the same as processing it once. */
  lemma ProcessInstanceIdempotent(inv: Inventory, instance: Instance)
    ensures ProcessInstance(ProcessInstance(inv, instance), instance) == ProcessInstance(inv, instance)
  {
    if !Rejected(instance) {
      StoreAndJoinIdempotent(inv, Ec2Hostname(instance), Ec2HostVars(instance, TagEnvironment(instance).value),
                             GroupsFor(instance));
    }
  }

  /** Storing a record and joining groups, done twice, is the same as done once. */
  lemma StoreAndJoinIdempotent(inv: Inventory, host: string, vars: HostVars, groups: seq<string>)
    ensures var once := AddToGroups(inv.(hostvars := inv.hostvars[host := vars]), groups, host);
            AddToGroups(once.(hostvars := once.hostvars[host := vars]), groups, host) == once
  {
    var stored := inv.(hostvars := inv.hostvars[host := vars]);
    var once := AddToGroups(stored, groups, host);
    AddToGroupsKeepsHostvars(stored, groups, host);
    assert once.hostvars[host := vars] == once.hostvars;
    assert once.(hostvars := once.hostvars[host := vars]) == once;
    AddToGroupsIdempotent(stored, groups, host);
  }

  /** `generate_inventory`: `_process_instance` over every instance in turn. */
  function ProcessAll(inv: Inventory, instances: seq<Instance>): Inventory
    decreases |instances|
  {
    if |instances| == 0 then inv else ProcessAll(ProcessInstance(inv, instances[0]), instances[1..])
  }

  /**
   * The inventory built from the instances `describe_instances` returned
   * (empty when it raised): it holds a record for exactly the hostnames of
   * the instances processing accepts.
   */
  function GenerateInventory(instances: seq<Instance>): (r: Inventory)
    ensures r.hostvars.Keys == AcceptedHostnames(instances)
  {
    ProcessAllKeys(Empty, instances);
    ProcessAll(Empty, instances)
  }

  /** The hostnames of the instances processing does not skip. */
  function AcceptedHostnames(instances: seq<Instance>): set<string> {
    set inst | inst in instances && !Rejected(inst) :: Ec2Hostname(inst)
  }

  /** Processing adds a record for exactly the accepted instances' hostnames. */
  lemma {:induction false} ProcessAllKeys(inv: Inventory, instances: seq<Instance>)
    ensures ProcessAll(inv, instances).hostvars.Keys == inv.hostvars.Keys + AcceptedHostnames(instances)
    decreases |instances|
  {
    if |instances| > 0 {
      ProcessAllKeys(ProcessInstance(inv, instances[0]), instances[1..]);
      AcceptedHostnamesCons(instances);
    }
  }

  lemma AcceptedHostnamesCons(instances: seq<Instance>)
    requires |instances| > 0
    ensures AcceptedHostnames(instances)
            == (if Rejected(instances[0]) then {} else {Ec2Hostname(instances[0])}) + AcceptedHostnames(instances[1..])
  {
    assert forall inst :: inst in instances <==> inst == instances[0] || inst in instances[1..];
  }

  /** Processing one instance keeps the inventory well formed. */
  lemma ProcessInstanceKeepsWellFormed(inv: Inventory, instance: Instance)
    requires Ec2WellFormed(inv)
    ensures Ec2WellFormed(ProcessInstance(inv, instance))
  {
    if !Rejected(instance) {
      var host := Ec2Hostname(instance);
      var stored := inv.(hostvars := inv.hostvars[host := Ec2HostVars(instance, TagEnvironment(instance).value)]);
      assert Ec2WellFormed(stored) by {
        assert forall g :: g in stored.groups ==> HostsOf(stored, g) == HostsOf(inv, g);
      }
      AddToGroupsKeepsWellFormed(stored, GroupsFor(instance), host);
    }
  }

  /** Processing keeps the inventory well formed: no group ever lists a host twice. */
  lemma {:induction false} ProcessAllKeepsWellFormed(inv: Inventory, instances: seq<Instance>)
    requires Ec2WellFormed(inv)
    ensures Ec2WellFormed(ProcessAll(inv, instances))
    decreases |instances|
  {
    if |instances| > 0 {
      ProcessInstanceKeepsWellFormed(inv, instances[0]);
      ProcessAllKeepsWellFormed(ProcessInstance(inv, instances[0]), instances[1..]);
    }
  }

  /** Group additions never drop a host from a group's `hosts` list. */
  lemma {:induction false} AddToGroupsKeepsHosts(inv: Inventory, groups: seq<string>, host: string, group: string, x: string)
    requires x in HostsOf(inv, group)
    ensures x in HostsOf(AddToGroups(inv, groups, host), group)
    decreases |groups|
  {
    if |groups| > 0 {
      match AddToGroup(inv, groups[0], host)
      case None =>
      case Some(next) =>
        assert x in HostsOf(next, group);
        AddToGroupsKeepsHosts(next, groups[1..], host, group, x);
    }
  }

  /** Additions starting with `all` and `web_servers` list the host in both, whatever follows. */
  lemma AddToGroupsJoinsFirstTwo(inv: Inventory, groups: seq<string>, host: string)
    requires |groups| >= 2 && groups[0] == AllGroup && groups[1] == WebServers
    requires HostsPresentIn(inv, AllGroup) && HostsPresentIn(inv, WebServers)
    ensures host in HostsOf(AddToGroups(inv, groups, host), AllGroup)
    ensures host in HostsOf(AddToGroups(inv, groups, host), WebServers)
  {
    var s1 := AddToGroup(inv, AllGroup, host).value;
    assert host in HostsOf(s1, AllGroup);
    var s2 := AddToGroup(s1, WebServers, host).value;
    assert host in HostsOf(s2, AllGroup) by {
      assert s2.groups[AllGroup] == s1.groups[AllGroup];
    }
    assert AddToGroups(inv, groups, host) == AddToGroups(s2, groups[2..], host) by {
      assert groups[1..][1..] == groups[2..];
    }
    AddToGroupsKeepsHosts(s2, groups[2..], host, AllGroup, host);
    AddToGroupsKeepsHosts(s2, groups[2..], host, WebServers, host);
  }

  /** Every host with a record is listed in both `all` and `web_servers`. */
  predicate ListedEverywhere(inv: Inventory) {
    ListedIn(inv, AllGroup) && ListedIn(inv, WebServers)
  }

  /**
   * Processing one instance keeps every host with a record listed in `all`
   * and `web_servers`: both additions come before the one that can fail.
   */
  lemma ProcessInstanceKeepsListed(inv: Inventory, instance: Instance)
    requires Ec2WellFormed(inv) && ListedEverywhere(inv)
    ensures ListedEverywhere(ProcessInstance(inv, instance))
  {
    if !Rejected(instance) {
      var host := Ec2Hostname(instance);
      var stored := inv.(hostvars := inv.hostvars[host := Ec2HostVars(instance, TagEnvironment(instance).value)]);
      var groups := GroupsFor(instance);
      var r := AddToGroups(stored, groups, host);
      assert r == ProcessInstance(inv, instance);
      AddToGroupsKeepsHostvars(stored, groups, host);
      AddToGroupsJoinsFirstTwo(stored, groups, host);
      forall x | x in r.hostvars ensures x in HostsOf(r, AllGroup) && x in HostsOf(r, WebServers) {
        if x != host {
          assert HostsOf(stored, AllGroup) == HostsOf(inv, AllGroup);
          assert HostsOf(stored, WebServers) == HostsOf(inv, WebServers);
          AddToGroupsKeepsHosts(stored, groups, host, AllGroup, x);
          AddToGroupsKeepsHosts(stored, groups, host, WebServers, x);
        }
      }
    }
  }

  lemma {:induction false} ProcessAllKeepsListed(inv: Inventory, instances: seq<Instance>)
    requires Ec2WellFormed(inv) && ListedEverywhere(inv)
    ensures ListedEverywhere(ProcessAll(inv, instances))
    decreases |instances|
  {
    if |instances| > 0 {
      ProcessInstanceKeepsWellFormed(inv, instances[0]);
      ProcessInstanceKeepsListed(inv, instances[0]);
      ProcessAllKeepsListed(ProcessInstance(inv, instances[0]), instances[1..]);
    }
  }

  /**
   * The generated inventory lists every host at most once per group, only
   * hosts with records, and every host with a record in `all` and `web_servers`.
   */
  lemma GenerateWellFormed(instances: seq<Instance>)
    ensures Ec2WellFormed(GenerateInventory(instances))
    ensures ListedEverywhere(GenerateInventory(instances))
  {
    ProcessAllKeepsWellFormed(Empty, instances);
    ProcessAllKeepsListed(Empty, instances);
  }

  /** The instances processing does not skip. */
  function Accepted(instances: seq<Instance>): (r: seq<Instance>)
    ensures forall i :: 0 <= i < |r| ==> !Rejected(r[i])
    ensures forall x :: x in r ==> x in instances
    ensures forall x :: x in instances && !Rejected(x) ==> x in r
    ensures |r| <= |instances|
    decreases |instances|
  {
    if |instances| == 0 then []
    else if Rejected(instances[0]) then Accepted(instances[1..])
    else [instances[0]] + Accepted(instances[1..])
  }

  /** The filter keeps the input order: filtering a concatenation filters each part in turn. */
  lemma {:induction false} AcceptedAppend(a: seq<Instance>, b: seq<Instance>)
    ensures Accepted(a + b) == Accepted(a) + Accepted(b)
    decreases |a|
  {
    if |a| == 0 {
      assert a + b == b;
    } else {
      assert (a + b)[0] == a[0] && (a + b)[1..] == a[1..] + b;
      AcceptedAppend(a[1..], b);
    }
  }

  /** Rejected instances contribute nothing: dropping them leaves the result unchanged. */
  lemma {:induction false} RejectedInstancesIgnored(inv: Inventory, instances: seq<Instance>)
    ensures ProcessAll(inv, Accepted(instances)) == ProcessAll(inv, instances)
    decreases |instances|
  {
    if |instances| > 0 {
      RejectedInstancesIgnored(ProcessInstance(inv, instances[0]), instances[1..]);
      if !Rejected(instances[0]) {
        var acc := [instances[0]] + Accepted(instances[1..]);
        assert acc[0] == instances[0] && acc[1..] == Accepted(instances[1..]);
      }
    }
  }

  /**
   * The two builders read a repeated `Environment` tag differently: the
   * Terraform builder's EC2 fallback takes the first, this builder the last.
   */
  lemma EnvironmentTagReadings()
    ensures var instance := Instance([Tag(EnvironmentTag, "dev"), Tag(EnvironmentTag, "prod")],
                                     None, Some("203.0.113.10"), None, None, None, None);
            && TerraformInventory.ExtractFromEc2(instance).Some?
            && TerraformInventory.ExtractFromEc2(instance).value["environment"] == Str("dev")
            && ProcessInstance(Empty, instance).hostvars.Keys == {"prod-unknown"}
  {
    var instance := Instance([Tag(EnvironmentTag, "dev"), Tag(EnvironmentTag, "prod")],
                             None, Some("203.0.113.10"), None, None, None, None);
    FirstTagVersusTagMap(instance.tags, EnvironmentTag, 0, 1);
    assert TagEnvironment(instance) == Some("prod");
    TagMapKeys(instance.tags, NameTag);
    assert NameTag !in TagMap(instance.tags) by {
      assert instance.tags[0].key != NameTag && instance.tags[1].key != NameTag;
    }
    assert Ec2Hostname(instance) == "prod-unknown";
  }
}

=== FILE: inventory_data.dfy ===
/**
 * The Ansible dynamic-inventory document shared by both inventory builders:
 * a `_meta.hostvars` table plus named groups, each optionally holding a
 * `hosts` list and a `vars` object.
 */
module InventoryData {
  import opened Wrappers

  /** A JSON value as it appears in host variables and group variables. */
  datatype Value = Null | Bool(b: bool) | Str(s: string) | Obj(fields: map<string, string>)

  /** The variables of one host: a JSON object. */
  type HostVars = map<string, Value>

  /**
   * One group of the inventory. A field is None when the group's JSON
   * object has no such key (the Terraform `all` group has no `hosts`,
   * groups built from EC2 tags have no `vars`).
   */
  datatype Group = Group(hosts: Option<seq<string>>, vars: Option<map<string, Value>>)

  /**
   * The inventory JSON object. `hostvars` is the content of `_meta.hostvars`;
   * every other top-level key is a group.
   */
  datatype Inventory = Inventory(hostvars: map<string, HostVars>, groups: map<string, Group>)

  /** The reserved top-level key holding the host-variable table. */
  const MetaKey := "_meta"

  const WebServers := "web_servers"
  const AllGroup := "all"
  const DefaultUser := "ubuntu"
  const DefaultKeyName := "iac-demo-key"
  const EnvironmentTag := "Environment"

  /** The private-key path of an EC2 key pair. */
  function KeyFile(keyName: string): string {
    "~/.ssh/" + keyName + ".pem"
  }

  /** The inventory both builders start from: `{'_meta': {'hostvars': {}}}`. */
  const Empty := Inventory(map[], map[])

  /** `_meta` is never a group: the document always holds `_meta.hostvars`. */
  predicate Valid(inv: Inventory) {
    MetaKey !in inv.groups
  }

  /** The `hosts` list of group `name` in `groups`, empty when the group or its list is absent. */
  function GroupHosts(groups: map<string, Group>, name: string): seq<string> {
    if name in groups && groups[name].hosts.Some? then groups[name].hosts.value else []
  }

  /** The `hosts` list of a group of the inventory. */
  function HostsOf(inv: Inventory, group: string): seq<string> {
    GroupHosts(inv.groups, group)
  }

  /** Every host named in some group's `hosts` list has a `_meta.hostvars` entry. */
  predicate HostsHaveVars(inv: Inventory) {
    forall group, host :: group in inv.groups && host in HostsOf(inv, group) ==> host in inv.hostvars
  }

  /** Every host with a `_meta.hostvars` entry is listed in `group`. */
  predicate ListedIn(inv: Inventory, group: string) {
    forall host :: host in inv.hostvars ==> host in HostsOf(inv, group)
  }

  predicate NoDuplicates(s: seq<string>) {
    forall i, j :: 0 <= i < j < |s| ==> s[i] != s[j]
  }

  /** Number of occurrences of `x` in `s`. */
  function Count(s: seq<string>, x: string): nat {
    if |s| == 0 then 0 else Count(s[..|s| - 1], x) + (if s[|s| - 1] == x then 1 else 0)
  }

  /** Python truthiness of an optional string: present and non-empty. */
  predicate Truthy(o: Option<string>) {
    o.Some? && o.value != ""
  }

  /** An optional string as a JSON value: `None` becomes `null`. */
  function OptionalValue(o: Option<string>): Value {
    match o
    case None => Null
    case Some(s) => Str(s)
  }

  /** An optional string as Python's `str.format` renders it: `None` becomes "None". */
  function FormatOptional(o: Option<string>): string {
    match o
    case None => "None"
    case Some(s) => s
  }

  /** The `_meta.hostvars` entry of `hostname`, or `{}` when there is none. */
  function GetHostVars(inv: Inventory, hostname: string): (r: HostVars)
    ensures hostname in inv.hostvars ==> r == inv.hostvars[hostname]
    ensures hostname !in inv.hostvars ==> r == map[]
  {
    if hostname in inv.hostvars then inv.hostvars[hostname] else map[]
  }

  lemma {:induction false} CountAppend(s: seq<string>, t: seq<string>, x: string)
    ensures Count(s + t, x) == Count(s, x) + Count(t, x)
    decreases |t|
  {
    if |t| == 0 {
      assert s + t == s;
    } else {
      assert (s + t)[..|s + t| - 1] == s + t[..|t| - 1];
      CountAppend(s, t[..|t| - 1], x);
    }
  }
}

=== FILE: terraform_inventory.dfy ===
/**
 * The Terraform-backed inventory builder: one `<env>-web-server` host per
 * environment whose Terraform state yields a public IP, with a fallback to
 * EC2 instance records when Terraform yields no host at all.
 */
module TerraformInventory {
  import opened Wrappers
  import opened InventoryData
  import opened CloudRecords

  const SshCommonArgs := "-o StrictHostKeyChecking=no -o UserKnownHostsFile=/dev/null"
  const DefaultEnvironments: seq<string> := ["dev", "staging", "prod"]

  /** The fixed `vars` the `all` group receives when it is created. */
  const AllVars: map<string, Value> := map[
    "ansible_python_interpreter" := Str("/usr/bin/python3"),
    "ansible_ssh_common_args" := Str(SshCommonArgs),
    "ansible_host_key_checking" := Bool(false)]

  /** The keys of a host record built from Terraform outputs. */
  const TerraformRecordKeys: set<string> := {
    "ansible_host", "ansible_user", "ansible_ssh_private_key_file", "environment",
    "private_ip", "instance_id", "key_name", "ansible_ssh_common_args"}

  /** The keys of a host record built from an EC2 instance: the Terraform ones plus `source`. */
  const Ec2RecordKeys: set<string> := TerraformRecordKeys + {"source"}

  /** The error that escapes `generate_inventory`: a group without a `hosts` list was appended to. */
  datatype Failure = MissingHosts(group: string)

  /** The Terraform view of one environment: whether `terraform show` found state, and `terraform output` (None when the command failed). */
  datatype TerraformEnv = TerraformEnv(stateExists: bool, outputs: Option<Outputs>)

  function HostnameFor(env: string): string {
    env + "-web-server"
  }

  lemma HostnameInjective(e1: string, e2: string)
    requires HostnameFor(e1) == HostnameFor(e2)
    ensures e1 == e2
  {
    assert |e1| == |e2|;
    assert e1 == HostnameFor(e1)[..|e1|];
  }

  /** A host record from Terraform outputs; None when `public_ip` has no non-empty value. */
  function ExtractFromTerraform(env: string, outputs: Outputs): (r: Option<HostVars>)
    ensures r.None? <==> !Truthy(OutputValue(outputs, "public_ip"))
    ensures r.Some? ==>
      && r.value.Keys == TerraformRecordKeys
      && r.value["ansible_host"] == Str(OutputValue(outputs, "public_ip").value)
      && r.value["ansible_user"] == Str(DefaultUser)
      && r.value["ansible_ssh_private_key_file"] == Str(KeyFile(FormatOptional(OutputValue(outputs, "key_name"))))
      && r.value["environment"] == Str(env)
      && r.value["private_ip"] == OptionalValue(OutputValue(outputs, "private_ip"))
      && r.value["instance_id"] == OptionalValue(OutputValue(outputs, "instance_id"))
      && r.value["key_name"] == OptionalValue(OutputValue(outputs, "key_name"))
      && r.value["ansible_ssh_common_args"] == Str(SshCommonArgs)
  {
    var publicIp := OutputValue(outputs, "public_ip");
    var keyName := OutputValue(outputs, "key_name");
    if !Truthy(publicIp) then None
    else Some(map[
      "ansible_host" := Str(publicIp.value),
      "ansible_user" := Str(DefaultUser),
      "ansible_ssh_private_key_file" := Str(KeyFile(FormatOptional(keyName))),
      "environment" := Str(env),
      "private_ip" := OptionalValue(OutputValue(outputs, "private_ip")),
      "instance_id" := OptionalValue(OutputValue(outputs, "instance_id")),
      "key_name" := OptionalValue(keyName),
      "ansible_ssh_common_args" := Str(SshCommonArgs)])
  }

  /** The environment of an EC2 instance: the value of its first `Environment` tag. */
  function Ec2Environment(instance: Instance): Option<string> {
    FirstTagValue(instance.tags, EnvironmentTag)
  }

  /** A host record from an EC2 instance; None without a non-empty environment or public IP. */
  function ExtractFromEc2(instance: Instance): (r: Option<HostVars>)
    ensures r.None? <==> !Truthy(Ec2Environment(instance)) || !Truthy(instance.publicIp)
    ensures r.Some? ==>
      && r.value.Keys == Ec2RecordKeys
      && r.value["ansible_host"] == Str(instance.publicIp.value)
      && r.value["ansible_user"] == Str(DefaultUser)
      && r.value["environment"] == Str(Ec2Environment(instance).value)
      && r.value["source"] == Str("aws-api")
      && r.value["ansible_ssh_private_key_file"]
           == Str(KeyFile(if instance.keyName.Some? then instance.keyName.value else DefaultKeyName))
      && r.value["key_name"] == Str(if instance.keyName.Some? then instance.keyName.value else DefaultKeyName)
      && r.value["private_ip"] == OptionalValue(instance.privateIp)
      && r.value["instance_id"] == OptionalValue(instance.instanceId)
      && r.value["ansible_ssh_common_args"] == Str(SshCommonArgs)
  {
    var env := Ec2Environment(instance);
    var keyName := if instance.keyName.Some? then instance.keyName.value else DefaultKeyName;
    if !Truthy(env) then None
    else if !Truthy(instance.publicIp) then None
    else Some(map[
      "ansible_host" := Str(instance.publicIp.value),
      "ansible_user" := Str(DefaultUser),
      "ansible_ssh_private_key_file" := Str(KeyFile(keyName)),
      "environment" := Str(env.value),
      "private_ip" := OptionalValue(instance.privateIp),
      "instance_id" := OptionalValue(instance.instanceId),
      "key_name" := Str(keyName),
      "ansible_ssh_common_args" := Str(SshCommonArgs),
      "source" := Str("aws-api")])
  }

  /** The Terraform outputs an EC2 instance would have produced. */
  function OutputsOf(instance: Instance): Outputs {
    map[
      "public_ip" := OutputEntry(instance.publicIp),
      "private_ip" := OutputEntry(instance.privateIp),
      "instance_id" := OutputEntry(instance.instanceId),
      "key_name" := OutputEntry(instance.keyName)]
  }

  /**
   * The two extractors agree: an EC2 record is the Terraform record of the
   * same addresses and key name, tagged with `source = aws-api`.
   */
  lemma ExtractorsAgree(instance: Instance)
    requires Truthy(Ec2Environment(instance))
    requires instance.keyName.Some?
    ensures ExtractFromEc2(instance).Some? <==> ExtractFromTerraform(Ec2Environment(instance).value, OutputsOf(instance)).Some?
    ensures ExtractFromEc2(instance).Some? ==>
      ExtractFromEc2(instance).value
        == ExtractFromTerraform(Ec2Environment(instance).value, OutputsOf(instance)).value["source" := Str("aws-api")]
  {
  }

  /**
   * Without a `key_name` output the Terraform record names the key file
   * `~/.ssh/None.pem`, while the EC2 extractor falls back to `iac-demo-key`.
   */
  lemma MissingKeyNameRendersNone(env: string, outputs: Outputs)
    requires "key_name" !in outputs && Truthy(OutputValue(outputs, "public_ip"))
    ensures var r := ExtractFromTerraform(env, outputs);
            r.Some? && r.value["ansible_ssh_private_key_file"] == Str("~/.ssh/None.pem")
            && r.value["key_name"] == Null
  {
    assert OutputValue(outputs, "key_name") == None;
  }

  /** Creates group `name` as `initial` unless it already exists. */
  function EnsureGroup(groups: map<string, Group>, name: string, initial: Group): (r: map<string, Group>)
    ensures r.Keys == groups.Keys + {name}
    ensures forall g :: g in groups ==> r[g] == groups[g]
    ensures name !in groups ==> r[name] == initial
  {
    if name in groups then groups else groups[name := initial]
  }

  /** Appends `host` to the `hosts` list of group `name`; None when the group has no such list. */
  function AppendHost(groups: map<string, Group>, name: string, host: string): (r: Option<map<string, Group>>)
    requires name in groups
    ensures r.None? <==> groups[name].hosts.None?
    ensures r.Some? ==> r.value.Keys == groups.Keys
    ensures r.Some? ==> forall g :: g in groups && g != name ==> r.value[g] == groups[g]
    ensures r.Some? ==> r.value[name] == Group(Some(groups[name].hosts.value + [host]), groups[name].vars)
  {
    var g := groups[name];
    if g.hosts.None? then None
    else Some(groups[name := g.(hosts := Some(g.hosts.value + [host]))])
  }

  /**
   * Creates group `name` as `initial` when absent, then appends `host` to its
   * `hosts` list; None when an existing group has no such list.
   */
  function JoinGroup(groups: map<string, Group>, name: string, initial: Group, host: string): (r: Option<map<string, Group>>)
    requires initial.hosts.Some?
    ensures r.None? <==> name in groups && groups[name].hosts.None?
    ensures r.Some? ==> r.value.Keys == groups.Keys + {name}
    ensures r.Some? ==> forall g :: g in groups && g != name ==> r.value[g] == groups[g]
    ensures r.Some? ==> r.value[name].hosts
                        == Some((if name in groups then groups[name].hosts.value else initial.hosts.value) + [host])
    ensures r.Some? ==> r.value[name].vars == (if name in groups then groups[name].vars else initial.vars)
  {
    AppendHost(EnsureGroup(groups, name, initial), name, host)
  }

  /**
   * The group part of adding a host: `host` is appended to `web_servers`
   * and to `env`, each created when absent, and `all` is created when
   * absent. Fails when a group appended to has no `hosts` list.
   */
  function AddHostGroups(groups: map<string, Group>, env: string, host: string): (r: Result<map<string, Group>, Failure>)
    ensures r.Err? <==>
      || (WebServers in groups && groups[WebServers].hosts.None?)
      || env == MetaKey
      || (env != WebServers && env in groups && groups[env].hosts.None?)
    ensures r.Ok? ==> r.value.Keys == groups.Keys + {WebServers, env, AllGroup}
    ensures r.Ok? ==> forall g :: g in groups ==> r.value[g].vars == groups[g].vars
    ensures r.Ok? ==> forall g :: g in groups && g != WebServers && g != env ==> r.value[g] == groups[g]
    ensures r.Ok? && WebServers !in groups ==> r.value[WebServers].vars == Some(map[])
    ensures r.Ok? && env !in groups && env != WebServers ==> r.value[env].vars == Some(map["environment" := Str(env)])
    ensures r.Ok? && AllGroup !in groups && env != AllGroup ==> r.value[AllGroup] == Group(None, Some(AllVars))
    ensures r.Ok? ==> r.value[WebServers].hosts
                      == Some(GroupHosts(groups, WebServers) + [host] + (if env == WebServers then [host] else []))
    ensures r.Ok? && env != WebServers ==> r.value[env].hosts == Some(GroupHosts(groups, env) + [host])
    ensures r.Ok? ==> MetaKey in r.value ==> MetaKey in groups
  {
    assert WebServers != MetaKey && AllGroup != MetaKey && AllGroup != WebServers;
    match JoinGroup(groups, WebServers, Group(Some([]), Some(map[])), host)
    case None => Err(MissingHosts(WebServers))
    case Some(g2) =>
      assert g2[WebServers].hosts == Some(GroupHosts(groups, WebServers) + [host]);
      if env == MetaKey then Err(MissingHosts(MetaKey))
      else
        match JoinGroup(g2, env, Group(Some([]), Some(map["environment" := Str(env)])), host)
        case None => Err(MissingHosts(env))
        case Some(g4) =>
          assert g4[WebServers].hosts
                 == Some(GroupHosts(groups, WebServers) + [host] + (if env == WebServers then [host] else [])) by {
            if env != WebServers {
              assert GroupHosts(groups, WebServers) + [host] + [] == GroupHosts(groups, WebServers) + [host];
            }
          }
          Ok(EnsureGroup(g4, AllGroup, Group(None, Some(AllVars))))
  }

  /**
   * Stores `info` under `<env>-web-server` and appends that name to the
   * `web_servers` and `<env>` groups, creating them (and the `all` group)
   * when absent. Fails, like Python's `KeyError` on the group's `hosts` key, when a group it
   * appends to has no `hosts` list, which is always the case for `_meta`.
   */
  function AddHost(inv: Inventory, env: string, info: HostVars): (r: Result<Inventory, Failure>)
    ensures r.Err? <==>
      || (WebServers in inv.groups && inv.groups[WebServers].hosts.None?)
      || env == MetaKey
      || (env != WebServers && env in inv.groups && inv.groups[env].hosts.None?)
    ensures r.Ok? ==> r.value.hostvars == inv.hostvars[HostnameFor(env) := info]
    ensures r.Ok? ==> r.value.groups.Keys == inv.groups.Keys + {WebServers, env, AllGroup}
    ensures r.Ok? ==> forall g :: g in inv.groups ==> r.value.groups[g].vars == inv.groups[g].vars
    ensures r.Ok? ==> forall g :: g in inv.groups && g != WebServers && g != env ==> r.value.groups[g] == inv.groups[g]
    ensures r.Ok? && WebServers !in inv.groups ==> r.value.groups[WebServers].vars == Some(map[])
    ensures r.Ok? && env !in inv.groups && env != WebServers ==>
              r.value.groups[env].vars == Some(map["environment" := Str(env)])
    ensures r.Ok? && AllGroup !in inv.groups && env != AllGroup ==> r.value.groups[AllGroup] == Group(None, Some(AllVars))
    ensures r.Ok? ==> HostsOf(r.value, WebServers)
                      == HostsOf(inv, WebServers) + [HostnameFor(env)] + (if env == WebServers then [HostnameFor(env)] else [])
    ensures r.Ok? && env != WebServers ==> HostsOf(r.value, env) == HostsOf(inv, env) + [HostnameFor(env)]
    ensures r.Ok? && Valid(inv) ==> Valid(r.value)
  {
    var groups :- AddHostGroups(inv.groups, env, HostnameFor(env));
    Ok(Inventory(inv.hostvars[HostnameFor(env) := info], groups))
  }

  /** Each successful addition lists the hostname in `web_servers` at least once more. */
  lemma AddHostListsAgain(inv: Inventory, env: string, info: HostVars)
    requires AddHost(inv, env, info).Ok?
    ensures Count(HostsOf(AddHost(inv, env, info).value, WebServers), HostnameFor(env))
            >= Count(HostsOf(inv, WebServers), HostnameFor(env)) + 1
  {
    var h := HostnameFor(env);
    var extra := [h] + (if env == WebServers then [h] else []);
    assert HostsOf(AddHost(inv, env, info).value, WebServers) == HostsOf(inv, WebServers) + extra;
    CountAppend(HostsOf(inv, WebServers), extra, h);
    assert Count(extra, h) >= 1 by {
      if env == WebServers {
        assert extra[..1] == [h];
      } else {
        assert extra == [h];
        assert [h][..0] == [];
      }
    }
  }

  /** Adding the same environment twice replaces its host record but lists its hostname twice. */
  lemma AddHostTwiceDuplicates(inv: Inventory, env: string, first: HostVars, second: HostVars)
    requires AddHost(inv, env, first).Ok?
    ensures AddHost(AddHost(inv, env, first).value, env, second).Ok?
    ensures AddHost(AddHost(inv, env, first).value, env, second).value.hostvars[HostnameFor(env)] == second
    ensures Count(HostsOf(AddHost(AddHost(inv, env, first).value, env, second).value, WebServers), HostnameFor(env))
            >= Count(HostsOf(inv, WebServers), HostnameFor(env)) + 2
  {
    var once := AddHost(inv, env, first).value;
    assert once.groups[WebServers].hosts.Some? by {
      assert HostsOf(once, WebServers) != [];
    }
    if env != WebServers {
      assert once.groups[env].hosts.Some? by {
        assert HostsOf(once, env) != [];
      }
    }
    AddHostListsAgain(inv, env, first);
    AddHostListsAgain(once, env, second);
  }

  /** Adding a host keeps every listed host backed by a `_meta.hostvars` entry. */
  lemma AddHostKeepsHostsHaveVars(inv: Inventory, env: string, info: HostVars)
    requires HostsHaveVars(inv)
    requires AddHost(inv, env, info).Ok?
    ensures HostsHaveVars(AddHost(inv, env, info).value)
  {
    var r := AddHost(inv, env, info).value;
    var h := HostnameFor(env);
    forall g, x | g in r.groups && x in HostsOf(r, g) ensures x in r.hostvars {
      if g == WebServers {
        assert HostsOf(r, g) == HostsOf(inv, WebServers) + [h] + (if env == WebServers then [h] else []);
      } else if g == env {
        assert HostsOf(r, g) == HostsOf(inv, env) + [h];
      } else if g in inv.groups {
        assert r.groups[g] == inv.groups[g];
        assert HostsOf(r, g) == HostsOf(inv, g);
      }
    }
  }

  /** Adding a host keeps every host with a record listed in `web_servers`. */
  lemma AddHostKeepsListed(inv: Inventory, env: string, info: HostVars)
    requires ListedIn(inv, WebServers)
    requires AddHost(inv, env, info).Ok?
    ensures ListedIn(AddHost(inv, env, info).value, WebServers)
  {
    var r := AddHost(inv, env, info).value;
    var h := HostnameFor(env);
    var extra := [h] + (if env == WebServers then [h] else []);
    assert HostsOf(r, WebServers) == HostsOf(inv, WebServers) + extra;
    forall x | x in r.hostvars ensures x in HostsOf(r, WebServers) {
      if x == h {
        assert extra[0] == h;
      } else {
        assert x in HostsOf(inv, WebServers);
      }
    }
  }

  /** Every group other than `all` carries a `hosts` list. */
  predicate HostsPresent(inv: Inventory) {
    forall g :: g in inv.groups && g != AllGroup ==> inv.groups[g].hosts.Some?
  }

  /** The `all` group, once present, holds exactly its fixed vars; it is present as soon as any host is. */
  predicate AllGroupFixed(inv: Inventory) {
    && (AllGroup in inv.groups ==> inv.groups[AllGroup] == Group(None, Some(AllVars)))
    && (|inv.hostvars| > 0 ==> AllGroup in inv.groups)
  }

  /** An inventory every ordinary addition keeps ordinary. */
  predicate Ordinary(inv: Inventory) {
    HostsPresent(inv) && AllGroupFixed(inv)
  }

  /** Adding a host for an environment other than `_meta` and `all` cannot fail when every group but `all` has `hosts`. */
  lemma AddHostKeepsHostsPresent(inv: Inventory, env: string, info: HostVars)
    requires HostsPresent(inv)
    requires env != MetaKey && env != AllGroup
    ensures AddHost(inv, env, info).Ok?
    ensures HostsPresent(AddHost(inv, env, info).value)
  {
    var r := AddHost(inv, env, info).value;
    forall g | g in r.groups && g != AllGroup ensures r.groups[g].hosts.Some? {
      if g == WebServers {
        assert HostsOf(r, WebServers) != [];
      } else if g == env {
        assert HostsOf(r, env) != [];
      }
    }
  }

  /** A successful addition for an environment other than `all` creates `all` with its fixed vars or leaves it untouched. */
  lemma AddHostKeepsAllGroupFixed(inv: Inventory, env: string, info: HostVars)
    requires AllGroupFixed(inv)
    requires env != AllGroup
    requires AddHost(inv, env, info).Ok?
    ensures AllGroupFixed(AddHost(inv, env, info).value)
  {
    assert HostnameFor(env) in AddHost(inv, env, info).value.hostvars;
  }

  /** Ordinary inventories stay ordinary under additions for environments other than `_meta` and `all`. */
  lemma AddHostSucceeds(inv: Inventory, env: string, info: HostVars)
    requires Ordinary(inv)
    requires env != MetaKey && env != AllGroup
    ensures AddHost(inv, env, info).Ok?
    ensures Ordinary(AddHost(inv, env, info).value)
  {
    AddHostKeepsHostsPresent(inv, env, info);
    AddHostKeepsAllGroupFixed(inv, env, info);
  }

  /** A non-empty `specific_env` argument. */
  predicate Given(specificEnv: Option<string>) {
    specificEnv.Some? && specificEnv.value != ""
  }

  /** The environments the Terraform loop visits: the given one, or all three defaults. */
  function ScannedEnvironments(specificEnv: Option<string>): seq<string> {
    if Given(specificEnv) then [specificEnv.value] else DefaultEnvironments
  }

  /**
   * The host Terraform yields for `env`: state exists, `terraform output`
   * succeeded with a non-empty mapping, and extraction found a public IP.
   * An environment missing from `terraform` has no Terraform directory.
   */
  function TerraformHost(env: string, terraform: map<string, TerraformEnv>): Option<HostVars> {
    if env in terraform && terraform[env].stateExists
       && terraform[env].outputs.Some? && |terraform[env].outputs.value| > 0
    then ExtractFromTerraform(env, terraform[env].outputs.value)
    else None
  }

  /** The hostnames Terraform contributes for `envs`. */
  function TerraformHostnames(envs: seq<string>, terraform: map<string, TerraformEnv>): set<string> {
    set e | e in envs && TerraformHost(e, terraform).Some? :: HostnameFor(e)
  }

  /** The Terraform loop of `generate_inventory`: the inventory and `hosts_found`. */
  function TerraformPass(inv: Inventory, envs: seq<string>, terraform: map<string, TerraformEnv>)
    : (r: Result<(Inventory, nat), Failure>)
    ensures r.Ok? ==> r.value.1 <= |envs|
    ensures r.Ok? ==> (r.value.1 == 0 <==> forall e :: e in envs ==> TerraformHost(e, terraform).None?)
    decreases |envs|
  {
    if |envs| == 0 then Ok((inv, 0))
    else
      assert forall e :: e in envs <==> e == envs[0] || e in envs[1..];
      match TerraformHost(envs[0], terraform)
      case None => TerraformPass(inv, envs[1..], terraform)
      case Some(info) =>
        var next :- AddHost(inv, envs[0], info);
        var rest :- TerraformPass(next, envs[1..], terraform);
        Ok((rest.0, rest.1 + 1))
  }

  /** The fallback keeps an environment when none is given or it is the given one. */
  predicate Selected(env: string, specificEnv: Option<string>) {
    !Given(specificEnv) || env == specificEnv.value
  }

  /** The AWS fallback loop: adds each extractable, selected instance under its environment. */
  function AwsPass(inv: Inventory, instances: seq<Instance>, specificEnv: Option<string>): Result<Inventory, Failure>
    decreases |instances|
  {
    if |instances| == 0 then Ok(inv)
    else match ExtractFromEc2(instances[0])
      case None => AwsPass(inv, instances[1..], specificEnv)
      case Some(info) =>
        var env := Ec2Environment(instances[0]).value;
        if Selected(env, specificEnv) then
          var next :- AddHost(inv, env, info);
          AwsPass(next, instances[1..], specificEnv)
        else AwsPass(inv, instances[1..], specificEnv)
  }

  /**
   * `generate_inventory`: Terraform first; the AWS instances (the result of
   * the `describe_instances` call, empty when it raised) are consulted only
   * when Terraform contributed no host.
   */
  function GenerateInventory(specificEnv: Option<string>, terraform: map<string, TerraformEnv>, awsInstances: seq<Instance>)
    : Result<Inventory, Failure>
  {
    var pass :- TerraformPass(Empty, ScannedEnvironments(specificEnv), terraform);
    if pass.1 == 0 then AwsPass(pass.0, awsInstances, specificEnv) else Ok(pass.0)
  }

  lemma TerraformHostnamesCons(envs: seq<string>, terraform: map<string, TerraformEnv>)
    requires |envs| > 0
    ensures TerraformHostnames(envs, terraform)
            == (if TerraformHost(envs[0], terraform).Some? then {HostnameFor(envs[0])} else {})
               + TerraformHostnames(envs[1..], terraform)
  {
    assert forall e :: e in envs <==> e == envs[0] || e in envs[1..];
  }

  /** With no yielding environment the Terraform loop adds nothing and cannot fail. */
  lemma {:induction false} TerraformPassNoHost(inv: Inventory, envs: seq<string>, terraform: map<string, TerraformEnv>)
    requires forall e :: e in envs ==> TerraformHost(e, terraform).None?
    ensures TerraformPass(inv, envs, terraform) == Ok((inv, 0))
    decreases |envs|
  {
    if |envs| > 0 {
      assert TerraformHost(envs[0], terraform).None?;
      assert forall e :: e in envs[1..] ==> e in envs;
      TerraformPassNoHost(inv, envs[1..], terraform);
    }
  }

  /** A yielding environment makes `hosts_found` positive. */
  lemma {:induction false} TerraformPassFound(inv: Inventory, envs: seq<string>, terraform: map<string, TerraformEnv>, e: string)
    requires e in envs && TerraformHost(e, terraform).Some?
    requires TerraformPass(inv, envs, terraform).Ok?
    ensures TerraformPass(inv, envs, terraform).value.1 > 0
    decreases |envs|
  {
    if TerraformHost(envs[0], terraform).None? {
      assert e in envs[1..];
      TerraformPassFound(inv, envs[1..], terraform, e);
    }
  }

  /** One step of the Terraform loop: what the loop over `envs` returns in terms of its tail. */
  lemma TerraformPassStep(inv: Inventory, envs: seq<string>, terraform: map<string, TerraformEnv>)
    requires |envs| > 0
    requires TerraformPass(inv, envs, terraform).Ok?
    ensures TerraformHost(envs[0], terraform).None? ==>
              TerraformPass(inv, envs[1..], terraform).Ok?
              && TerraformPass(inv, envs, terraform).value.0 == TerraformPass(inv, envs[1..], terraform).value.0
    ensures TerraformHost(envs[0], terraform).Some? ==>
              var next := AddHost(inv, envs[0], TerraformHost(envs[0], terraform).value);
              && next.Ok?
              && TerraformPass(next.value, envs[1..], terraform).Ok?
              && TerraformPass(inv, envs, terraform).value.0 == TerraformPass(next.value, envs[1..], terraform).value.0
  {
  }

  /** The Terraform loop adds exactly the hostnames of the yielding environments. */
  lemma {:induction false} TerraformPassKeys(inv: Inventory, envs: seq<string>, terraform: map<string, TerraformEnv>)
    requires TerraformPass(inv, envs, terraform).Ok?
    ensures TerraformPass(inv, envs, terraform).value.0.hostvars.Keys == inv.hostvars.Keys + TerraformHostnames(envs, terraform)
    decreases |envs|
  {
    if |envs| > 0 {
      TerraformHostnamesCons(envs, terraform);
      TerraformPassStep(inv, envs, terraform);
      match TerraformHost(envs[0], terraform)
      case None =>
        TerraformPassKeys(inv, envs[1..], terraform);
      case Some(info) =>
        TerraformPassKeys(AddHost(inv, envs[0], info).value, envs[1..], terraform);
    }
  }

  /** Host records the Terraform loop does not add are left alone. */
  lemma {:induction false} TerraformPassKeepsOthers(inv: Inventory, envs: seq<string>, terraform: map<string, TerraformEnv>, h: string)
    requires TerraformPass(inv, envs, terraform).Ok?
    requires h in inv.hostvars && h !in TerraformHostnames(envs, terraform)
    ensures h in TerraformPass(inv, envs, terraform).value.0.hostvars
    ensures TerraformPass(inv, envs, terraform).value.0.hostvars[h] == inv.hostvars[h]
    decreases |envs|
  {
    if |envs| > 0 {
      TerraformHostnamesCons(envs, terraform);
      TerraformPassStep(inv, envs, terraform);
      match TerraformHost(envs[0], terraform)
      case None =>
        TerraformPassKeepsOthers(inv, envs[1..], terraform, h);
      case Some(info) =>
        TerraformPassKeepsOthers(AddHost(inv, envs[0], info).value, envs[1..], terraform, h);
    }
  }

  /** Every yielding environment's record is stored under its hostname. */
  lemma {:induction false} TerraformPassRecords(inv: Inventory, envs: seq<string>, terraform: map<string, TerraformEnv>, e: string)
    requires TerraformPass(inv, envs, terraform).Ok?
    requires e in envs && TerraformHost(e, terraform).Some?
    ensures HostnameFor(e) in TerraformPass(inv, envs, terraform).value.0.hostvars
    ensures TerraformPass(inv, envs, terraform).value.0.hostvars[HostnameFor(e)] == TerraformHost(e, terraform).value
    decreases |envs|
  {
    TerraformPassStep(inv, envs, terraform);
    var rest := envs[1..];
    if e in rest {
      match TerraformHost(envs[0], terraform)
      case None =>
        TerraformPassRecords(inv, rest, terraform, e);
      case Some(info) =>
        TerraformPassRecords(AddHost(inv, envs[0], info).value, rest, terraform, e);
    } else {
      assert e == envs[0];
      var next := AddHost(inv, e, TerraformHost(e, terraform).value).value;
      if HostnameFor(e) in TerraformHostnames(rest, terraform) {
        var e' :| e' in rest && TerraformHost(e', terraform).Some? && HostnameFor(e') == HostnameFor(e);
        HostnameInjective(e', e);
      }
      TerraformPassKeepsOthers(next, rest, terraform, HostnameFor(e));
    }
  }

  /**
   * `_meta` is no group, every host listed in a group has a record, and
   * every host with a record is listed in `web_servers`.
   */
  predicate WellFormed(inv: Inventory) {
    Valid(inv) && HostsHaveVars(inv) && ListedIn(inv, WebServers)
  }

  lemma {:induction false} TerraformPassWellFormed(inv: Inventory, envs: seq<string>, terraform: map<string, TerraformEnv>)
    requires WellFormed(inv)
    requires TerraformPass(inv, envs, terraform).Ok?
    ensures WellFormed(TerraformPass(inv, envs, terraform).value.0)
    decreases |envs|
  {
    if |envs| > 0 {
      match TerraformHost(envs[0], terraform)
      case None =>
        TerraformPassWellFormed(inv, envs[1..], terraform);
      case Some(info) =>
        AddHostKeepsHostsHaveVars(inv, envs[0], info);
        AddHostKeepsListed(inv, envs[0], info);
        TerraformPassWellFormed(AddHost(inv, envs[0], info).value, envs[1..], terraform);
    }
  }

  lemma {:induction false} AwsPassWellFormed(inv: Inventory, instances: seq<Instance>, specificEnv: Option<string>)
    requires WellFormed(inv)
    requires AwsPass(inv, instances, specificEnv).Ok?
    ensures WellFormed(AwsPass(inv, instances, specificEnv).value)
    decreases |instances|
  {
    if |instances| > 0 {
      match ExtractFromEc2(instances[0])
      case None =>
        AwsPassWellFormed(inv, instances[1..], specificEnv);
      case Some(info) =>
        var env := Ec2Environment(instances[0]).value;
        if Selected(env, specificEnv) {
          AddHostKeepsHostsHaveVars(inv, env, info);
          AddHostKeepsListed(inv, env, info);
          AwsPassWellFormed(AddHost(inv, env, info).value, instances[1..], specificEnv);
        } else {
          AwsPassWellFormed(inv, instances[1..], specificEnv);
        }
    }
  }

  /**
   * With a given environment, every host the AWS fallback adds is that
   * environment's `<env>-web-server`, with a record naming that environment.
   */
  lemma {:induction false} AwsPassSelects(inv: Inventory, instances: seq<Instance>, specificEnv: Option<string>)
    requires Given(specificEnv)
    requires AwsPass(inv, instances, specificEnv).Ok?
    ensures var out := AwsPass(inv, instances, specificEnv).value;
            forall h :: h in out.hostvars ==>
              || (h in inv.hostvars && out.hostvars[h] == inv.hostvars[h])
              || (h == HostnameFor(specificEnv.value) && "environment" in out.hostvars[h]
                  && out.hostvars[h]["environment"] == Str(specificEnv.value))
    decreases |instances|
  {
    if |instances| > 0 {
      match ExtractFromEc2(instances[0])
      case None =>
        AwsPassSelects(inv, instances[1..], specificEnv);
      case Some(info) =>
        var env := Ec2Environment(instances[0]).value;
        if Selected(env, specificEnv) {
          AwsPassSelects(AddHost(inv, env, info).value, instances[1..], specificEnv);
        } else {
          AwsPassSelects(inv, instances[1..], specificEnv);
        }
    }
  }

  lemma AwsPassStep(inv: Inventory, instances: seq<Instance>, specificEnv: Option<string>)
    requires |instances| > 0
    requires AwsPass(inv, instances, specificEnv).Ok?
    ensures !Added(instances[0], specificEnv) ==>
              AwsPass(inv, instances[1..], specificEnv) == AwsPass(inv, instances, specificEnv)
    ensures Added(instances[0], specificEnv) ==>
              var next := AddHost(inv, Ec2Environment(instances[0]).value, ExtractFromEc2(instances[0]).value);
              && next.Ok?
              && AwsPass(next.value, instances[1..], specificEnv) == AwsPass(inv, instances, specificEnv)
  {
  }

  /** The AWS fallback adds `instance`: it extracts, and its environment is selected. */
  predicate Added(instance: Instance, specificEnv: Option<string>) {
    Truthy(Ec2Environment(instance)) && Truthy(instance.publicIp) && Selected(Ec2Environment(instance).value, specificEnv)
  }

  /** The hostnames the AWS fallback contributes. */
  function AwsHostnames(instances: seq<Instance>, specificEnv: Option<string>): set<string> {
    set inst | inst in instances && Added(inst, specificEnv) :: HostnameFor(Ec2Environment(inst).value)
  }

  lemma AwsHostnamesCons(instances: seq<Instance>, specificEnv: Option<string>)
    requires |instances| > 0
    ensures AwsHostnames(instances, specificEnv)
            == (if Added(instances[0], specificEnv) then {HostnameFor(Ec2Environment(instances[0]).value)} else {})
               + AwsHostnames(instances[1..], specificEnv)
  {
    assert forall inst :: inst in instances <==> inst == instances[0] || inst in instances[1..];
  }

  /** The AWS fallback adds exactly the hostnames of the instances it selects. */
  lemma {:induction false} AwsPassKeys(inv: Inventory, instances: seq<Instance>, specificEnv: Option<string>)
    requires AwsPass(inv, instances, specificEnv).Ok?
    ensures AwsPass(inv, instances, specificEnv).value.hostvars.Keys == inv.hostvars.Keys + AwsHostnames(instances, specificEnv)
    decreases |instances|
  {
    if |instances| > 0 {
      AwsPassStep(inv, instances, specificEnv);
      var next := AwsNext(inv, instances[0], specificEnv);
      AwsPassKeys(next, instances[1..], specificEnv);
      AwsKeysStep(inv, instances, specificEnv);
    }
  }

  /** The inventory after the AWS fallback looked at `instance`. */
  function AwsNext(inv: Inventory, instance: Instance, specificEnv: Option<string>): Inventory {
    if Added(instance, specificEnv) then
      match AddHost(inv, Ec2Environment(instance).value, ExtractFromEc2(instance).value)
      case Ok(next) => next
      case Err(_) => inv
    else inv
  }

  lemma AwsKeysStep(inv: Inventory, instances: seq<Instance>, specificEnv: Option<string>)
    requires |instances| > 0
    requires AwsPass(inv, instances, specificEnv).Ok?
    requires AwsPass(AwsNext(inv, instances[0], specificEnv), instances[1..], specificEnv) == AwsPass(inv, instances, specificEnv)
    requires AwsPass(inv, instances, specificEnv).value.hostvars.Keys
             == AwsNext(inv, instances[0], specificEnv).hostvars.Keys + AwsHostnames(instances[1..], specificEnv)
    requires Added(instances[0], specificEnv) ==>
               AddHost(inv, Ec2Environment(instances[0]).value, ExtractFromEc2(instances[0]).value).Ok?
    ensures AwsPass(inv, instances, specificEnv).value.hostvars.Keys == inv.hostvars.Keys + AwsHostnames(instances, specificEnv)
  {
    AwsHostnamesCons(instances, specificEnv);
  }

  /** No AddHost of the Terraform loop fails when no scanned environment is `_meta` or `all`. */
  lemma {:induction false} TerraformPassSucceeds(inv: Inventory, envs: seq<string>, terraform: map<string, TerraformEnv>)
    requires Ordinary(inv)
    requires forall e :: e in envs ==> e != MetaKey && e != AllGroup
    ensures TerraformPass(inv, envs, terraform).Ok?
    ensures Ordinary(TerraformPass(inv, envs, terraform).value.0)
    decreases |envs|
  {
    if |envs| > 0 {
      assert envs[0] in envs;
      assert forall e :: e in envs[1..] ==> e in envs;
      match TerraformHost(envs[0], terraform)
      case None =>
        TerraformPassSucceeds(inv, envs[1..], terraform);
      case Some(info) =>
        AddHostSucceeds(inv, envs[0], info);
        TerraformPassSucceeds(AddHost(inv, envs[0], info).value, envs[1..], terraform);
    }
  }

  /** The environment tags no instance uses as `_meta` or `all`. */
  predicate OrdinaryTags(instances: seq<Instance>) {
    forall i :: 0 <= i < |instances| && Truthy(Ec2Environment(instances[i])) ==>
      Ec2Environment(instances[i]).value != MetaKey && Ec2Environment(instances[i]).value != AllGroup
  }

  lemma {:induction false} AwsPassSucceeds(inv: Inventory, instances: seq<Instance>, specificEnv: Option<string>)
    requires Ordinary(inv)
    requires OrdinaryTags(instances)
    ensures AwsPass(inv, instances, specificEnv).Ok?
    ensures Ordinary(AwsPass(inv, instances, specificEnv).value)
    decreases |instances|
  {
    if |instances| > 0 {
      assert OrdinaryTags(instances[1..]) by {
        forall i | 0 <= i < |instances[1..]| ensures instances[1..][i] == instances[i + 1] { }
      }
      match ExtractFromEc2(instances[0])
      case None =>
        AwsPassSucceeds(inv, instances[1..], specificEnv);
      case Some(info) =>
        var env := Ec2Environment(instances[0]).value;
        if Selected(env, specificEnv) {
          AddHostSucceeds(inv, env, info);
          AwsPassSucceeds(AddHost(inv, env, info).value, instances[1..], specificEnv);
        } else {
          AwsPassSucceeds(inv, instances[1..], specificEnv);
        }
    }
  }

  /**
   * Terraform yields a host for `env` exactly when its state exists, its
   * outputs are non-empty and hold a non-empty `public_ip`; the record has
   * the eight Terraform keys and names `env`.
   */
  lemma TerraformHostRecord(env: string, terraform: map<string, TerraformEnv>)
    ensures TerraformHost(env, terraform).Some? <==>
      && env in terraform && terraform[env].stateExists
      && terraform[env].outputs.Some? && |terraform[env].outputs.value| > 0
      && Truthy(OutputValue(terraform[env].outputs.value, "public_ip"))
    ensures TerraformHost(env, terraform).Some? ==>
      && TerraformHost(env, terraform).value.Keys == TerraformRecordKeys
      && TerraformHost(env, terraform).value["environment"] == Str(env)
  {
  }

  /** When no scanned environment yields a Terraform host, the result is the AWS fallback alone. */
  lemma GenerateFallsBack(specificEnv: Option<string>, terraform: map<string, TerraformEnv>, awsInstances: seq<Instance>)
    requires forall e :: e in ScannedEnvironments(specificEnv) ==> TerraformHost(e, terraform).None?
    ensures GenerateInventory(specificEnv, terraform, awsInstances) == AwsPass(Empty, awsInstances, specificEnv)
    ensures GenerateInventory(specificEnv, terraform, awsInstances).Ok? ==>
              GenerateInventory(specificEnv, terraform, awsInstances).value.hostvars.Keys
              == AwsHostnames(awsInstances, specificEnv)
  {
    TerraformPassNoHost(Empty, ScannedEnvironments(specificEnv), terraform);
    if AwsPass(Empty, awsInstances, specificEnv).Ok? {
      AwsPassKeys(Empty, awsInstances, specificEnv);
    }
  }

  /** When Terraform yields a host, generation is the Terraform loop's result. */
  lemma GenerateIsTerraformPass(specificEnv: Option<string>, terraform: map<string, TerraformEnv>,
                                awsInstances: seq<Instance>, env: string)
    requires env in ScannedEnvironments(specificEnv) && TerraformHost(env, terraform).Some?
    ensures var pass := TerraformPass(Empty, ScannedEnvironments(specificEnv), terraform);
            GenerateInventory(specificEnv, terraform, awsInstances)
            == if pass.Ok? then Ok(pass.value.0) else Err(pass.error)
  {
    var pass := TerraformPass(Empty, ScannedEnvironments(specificEnv), terraform);
    if pass.Ok? {
      TerraformPassFound(Empty, ScannedEnvironments(specificEnv), terraform, env);
    }
  }

  /** Every record the Terraform loop adds to an empty inventory is a Terraform record, without `source`. */
  lemma TerraformPassHasNoSource(envs: seq<string>, terraform: map<string, TerraformEnv>)
    requires TerraformPass(Empty, envs, terraform).Ok?
    ensures var out := TerraformPass(Empty, envs, terraform).value.0;
            && out.hostvars.Keys == TerraformHostnames(envs, terraform)
            && forall h :: h in out.hostvars ==> "source" !in out.hostvars[h]
  {
    TerraformPassKeys(Empty, envs, terraform);
    var out := TerraformPass(Empty, envs, terraform).value.0;
    forall h | h in out.hostvars ensures "source" !in out.hostvars[h] {
      assert h in TerraformHostnames(envs, terraform);
      var e :| e in envs && TerraformHost(e, terraform).Some? && HostnameFor(e) == h;
      TerraformPassRecords(Empty, envs, terraform, e);
      TerraformHostRecord(e, terraform);
      SourceIsNoTerraformKey();
    }
  }

  lemma SourceIsNoTerraformKey()
    ensures "source" !in TerraformRecordKeys
  {
    assert |"source"| == 6;
  }

  /**
   * When some scanned environment yields a Terraform host, the AWS
   * instances are never consulted, and the hosts are exactly the yielding
   * environments' `<env>-web-server`, none of them marked `source`.
   */
  lemma GeneratePrefersTerraform(specificEnv: Option<string>, terraform: map<string, TerraformEnv>,
                                 aws1: seq<Instance>, aws2: seq<Instance>, env: string)
    requires env in ScannedEnvironments(specificEnv) && TerraformHost(env, terraform).Some?
    ensures GenerateInventory(specificEnv, terraform, aws1) == GenerateInventory(specificEnv, terraform, aws2)
    ensures GenerateInventory(specificEnv, terraform, aws1).Ok? ==>
              var out := GenerateInventory(specificEnv, terraform, aws1).value;
              && out.hostvars.Keys == TerraformHostnames(ScannedEnvironments(specificEnv), terraform)
              && forall h :: h in out.hostvars ==> "source" !in out.hostvars[h]
  {
    GenerateIsTerraformPass(specificEnv, terraform, aws1, env);
    GenerateIsTerraformPass(specificEnv, terraform, aws2, env);
    if TerraformPass(Empty, ScannedEnvironments(specificEnv), terraform).Ok? {
      TerraformPassHasNoSource(ScannedEnvironments(specificEnv), terraform);
    }
  }

  /** `get_host_vars` returns the Terraform record of every yielding scanned environment. */
  lemma GetHostVarsOfTerraformHost(specificEnv: Option<string>, terraform: map<string, TerraformEnv>,
                                   awsInstances: seq<Instance>, env: string)
    requires env in ScannedEnvironments(specificEnv) && TerraformHost(env, terraform).Some?
    requires GenerateInventory(specificEnv, terraform, awsInstances).Ok?
    ensures GetHostVars(GenerateInventory(specificEnv, terraform, awsInstances).value, HostnameFor(env))
            == TerraformHost(env, terraform).value
  {
    var envs := ScannedEnvironments(specificEnv);
    TerraformPassFound(Empty, envs, terraform, env);
    TerraformPassRecords(Empty, envs, terraform, env);
  }

  /**
   * With a given environment, the only possible host is that environment's
   * `<env>-web-server`, its record names that environment, and
   * `get_host_vars` of any other name is `{}`.
   */
  lemma GenerateRestrictsEnvironment(specificEnv: Option<string>, terraform: map<string, TerraformEnv>, awsInstances: seq<Instance>)
    requires Given(specificEnv)
    requires GenerateInventory(specificEnv, terraform, awsInstances).Ok?
    ensures var out := GenerateInventory(specificEnv, terraform, awsInstances).value;
            forall h :: h in out.hostvars ==>
              h == HostnameFor(specificEnv.value) && "environment" in out.hostvars[h]
              && out.hostvars[h]["environment"] == Str(specificEnv.value)
    ensures var out := GenerateInventory(specificEnv, terraform, awsInstances).value;
            forall h :: h != HostnameFor(specificEnv.value) ==> GetHostVars(out, h) == map[]
  {
    var env := specificEnv.value;
    var envs := ScannedEnvironments(specificEnv);
    assert envs == [env];
    var out := GenerateInventory(specificEnv, terraform, awsInstances).value;
    if TerraformHost(env, terraform).Some? {
      TerraformPassFound(Empty, envs, terraform, env);
      TerraformPassKeys(Empty, envs, terraform);
      TerraformPassRecords(Empty, envs, terraform, env);
      TerraformHostRecord(env, terraform);
      assert TerraformHostnames(envs, terraform) == {HostnameFor(env)};
    } else {
      TerraformPassNoHost(Empty, envs, terraform);
      AwsPassSelects(Empty, awsInstances, specificEnv);
    }
  }

  /**
   * The generated inventory never has a `_meta` group, every host listed
   * in a group has a record, and every host with a record is in `web_servers`.
   */
  lemma GenerateWellFormed(specificEnv: Option<string>, terraform: map<string, TerraformEnv>, awsInstances: seq<Instance>)
    requires GenerateInventory(specificEnv, terraform, awsInstances).Ok?
    ensures WellFormed(GenerateInventory(specificEnv, terraform, awsInstances).value)
  {
    var envs := ScannedEnvironments(specificEnv);
    TerraformPassWellFormed(Empty, envs, terraform);
    var pass := TerraformPass(Empty, envs, terraform).value;
    if pass.1 == 0 {
      AwsPassWellFormed(pass.0, awsInstances, specificEnv);
    }
  }

  /**
   * Generation fails only through an environment named `_meta` or `all`;
   * otherwise it succeeds and the `all` group, present once any host is,
   * holds exactly its fixed vars.
   */
  lemma GenerateSucceeds(specificEnv: Option<string>, terraform: map<string, TerraformEnv>, awsInstances: seq<Instance>)
    requires Given(specificEnv) ==> specificEnv.value != MetaKey && specificEnv.value != AllGroup
    requires OrdinaryTags(awsInstances)
    ensures GenerateInventory(specificEnv, terraform, awsInstances).Ok?
    ensures var out := GenerateInventory(specificEnv, terraform, awsInstances).value;
            |out.hostvars| > 0 ==> AllGroup in out.groups && out.groups[AllGroup] == Group(None, Some(AllVars))
  {
    var envs := ScannedEnvironments(specificEnv);
    TerraformPassSucceeds(Empty, envs, terraform);
    var pass := TerraformPass(Empty, envs, terraform).value;
    if pass.1 == 0 {
      AwsPassSucceeds(pass.0, awsInstances, specificEnv);
    }
  }

  /** When `_meta` is the given environment and Terraform yields its host, generation fails. */
  lemma GenerateFailsForMetaEnvironment(terraform: map<string, TerraformEnv>, awsInstances: seq<Instance>)
    requires TerraformHost(MetaKey, terraform).Some?
    ensures GenerateInventory(Some(MetaKey), terraform, awsInstances) == Err(MissingHosts(MetaKey))
  {
    assert ScannedEnvironments(Some(MetaKey)) == [MetaKey];
  }
}

=== FILE: wrappers.dfy ===
/** Failure-compatible Option and Result types used throughout the model. */
module Wrappers {

  /** A value that may be absent: a Python `None` or a missing dictionary key. */
  datatype Option<+T> = None | Some(value: T)

  /** Either a value or the error that aborted the computation. */
  datatype Result<+T, +E> = Ok(value: T) | Err(error: E) {

    predicate IsFailure() {
      Err?
    }

    function PropagateFailure<U>(): Result<U, E>
      requires Err?
    {
      Err(error)
    }

    function Extract(): T
      requires Ok?
    {
      value
    }
  }
}
